=== FILE: README.md ===
# Ticket reservations and payment reconciliation — a Dafny model

This project models the reservation and payment core of an event-ticketing
backend (a Django REST service). It covers:

- Users and the write permission.
- Reservations, which hold tickets of a ticket type for 24 hours. Each one carries a
  generated 12-character reference code.
- Payment proofs, which a payer uploads and staff approve or reject.
- The payment ledger. Each payment belongs to one reservation.
- Refund requests.
- The reconciliation handler. It runs after every save and delete of a payment. It
  sets a reservation's paid amount to the sum of its completed payments and derives
  the reservation's status from that sum.

Money is counted in integer cents and time in integer seconds.

The database is an immutable record (`Store.Db`). Its tables are maps keyed by id,
and the ledger is a sequence of payments. Every endpoint is a function from a
database and a request to either a new database or an error. The central invariant
is `Store.Valid`. It says that row ids match their keys, reference codes are unique,
and every foreign key resolves: a reservation's ticket type, a payment's and a
proof's reservation, and a refund's payment. It also says that every reservation's
paid amount equals the sum of its completed payments. The model proves that every
endpoint it covers preserves the invariant, except a payment update as the code
performs it (`Store.UpdatePaymentAsWritten`). That update can break the invariant;
see "## Findings".

Several things outside the model are passed in as parameters:

- the random bytes behind a reference code,
- the current time,
- the email normalisation,
- the allowed upload types, the maximum upload size and the storage path.

## Behaviour as written

Some of the code's behaviour is surprising; the model keeps it as written:

- **Re-reviewing a proof is NotFound.** Staff look proofs up only among the pending
  ones (reservations/views.py:102-105). So approving or rejecting a proof that was
  already reviewed is `NotFound`, and approving the same proof twice records only one
  payment (`ReservationViews.ApproveTwiceRefused`).
- **An amount of "0" is accepted on proof upload.** The check is `not amount` on the
  submitted text. Only an absent or empty amount is refused; "0" is given.
- **A quantity of 0 is accepted.** The field is a `PositiveIntegerField`, which
  accepts 0, and the serializer only checks the upper bound against the tickets
  available.
- **The deposit does not change the status.** Both branches of the reconciliation
  deposit test set `confirmed`. So the reservation fee never changes the outcome
  (`Ledger.ReconcileIgnoresFee`).
- **Refunds do not feed back into the ledger.** Approving, processing or
  rejecting a refund only writes the refund row. The payment keeps its status and
  the reservation keeps its paid amount (`PaymentViews.RefundActionOn`).
- **Payment writes are open to any signed-in user.** The payment routes check only
  that the requester is signed in (payments/views.py:84). The payment serializer
  leaves status, amount and reservation writable (payments/serializers.py:11). So any
  signed-in user can create a completed payment for any reservation. Reconciliation
  then counts it, and the reservation can become completed without any proof being
  reviewed (`Store.OpenPaymentCompletes`).
- **Refund status is writable by the requester.** Only the three refund actions
  check for staff. A signed-in requester can update their own refund through the
  generic update route (payments/views.py:150-156), and the refund serializer leaves
  the status writable (payments/serializers.py:20). So refund status is staff-only
  only through `PaymentViews.RefundActionOn`.
- **A new proof forces the reservation to pending**, even when the reservation is
  already completed (`ReservationViews.UploadPaymentProof`).

## Model

| member | source | states |
|---|---|---|
| Users.CreateUser | users/models.py:7-19 | An empty email fails with "The Email must be set". Otherwise the email and the username are both the normalised email, and the account gets the role and flag defaults: attendee, unverified, not staff, not superuser, active. |
| Users.CreateSuperuser | users/models.py:21-33 | Missing flags default to staff, superuser, active, admin and verified. An explicit is_staff=False fails first, then an explicit is_superuser=False. Otherwise the outcome is create_user's: an empty email fails, any other succeeds with both flags set. |
| Users.NewUser | users/models.py:47-48 | A user built without extra fields is an active attendee, unverified, and neither staff nor superuser. |
| Users.SuperuserWithoutExtras | users/models.py:21-26 | Without extra fields, a superuser is a verified, active administrator with both flags set. |
| Permissions.HasPermission | users/permissions.py:5-11 | GET, HEAD and OPTIONS are always allowed. Any other verb is allowed exactly when the requester is signed in and is staff or superuser. |
| Permissions.AnonymousCannotWrite | users/permissions.py:10-11 | An anonymous requester can never use a write verb. |
| Permissions.EitherFlagSuffices | users/permissions.py:11 | The staff flag alone, or the superuser flag alone, grants writes. |
| Permissions.PlainAccountReadsOnly | users/permissions.py:7-11 | A signed-in account with neither flag can use exactly the safe verbs. |
| Payments.NewPayment | payments/models.py:19-25 | A new payment is pending, in ZAR and has an empty transaction reference, unless those fields are given. |
| Payments.MarkAsCompleted | payments/models.py:32-37 | The payment becomes completed and stamped with the current time. A non-empty reference replaces the stored one; an absent or empty one keeps it. Nothing else changes. |
| Payments.NewRefund | payments/models.py:47-54 | A new refund request is "requested", not processed, and has empty notes. |
| Payments.ApproveRefund | payments/views.py:169-171 | Only the status changes, to approved. |
| Payments.ProcessRefund | payments/views.py:181-184 | The status becomes processed and the time is stamped. Nothing else changes. |
| Payments.RejectRefund | payments/views.py:194-197 | The status becomes rejected. The notes become the given ones, or empty. Nothing else changes. |
| Text.HexRoundTrip | reservations/models.py:6-7 | Upper-casing the hex rendering of bytes gives upper-case hex digits that decode back to the same bytes. |
| Text.DecimalRoundTrip | reservations/views.py:129 | The decimal rendering of an id parses back to that id. |
| Reservations.GenerateReservationCode | reservations/models.py:6-7 | Six random bytes give a 12-character upper-case hex code that decodes back to those bytes. |
| Reservations.ReferenceCodeInjective | reservations/models.py:24 | Different random bytes never give the same reference code. |
| Reservations.NewReservation | reservations/models.py:22-28 | A new reservation has quantity 1, status reserved and nothing paid unless those fields are given. It gets the generated code and is reserved now. |
| Reservations.Save | reservations/models.py:30-33 | An unset expiry becomes now plus 24 hours. A set one is kept, and nothing else changes. |
| Reservations.SaveIdempotent | reservations/models.py:30-33 | Saving again, at any later time, changes nothing. |
| Reservations.OutstandingBalance | reservations/models.py:35-37 | The balance plus the amount paid is the total. |
| Reservations.NewPaymentProof | reservations/models.py:49-56 | A new proof awaits review, has a declared amount of 0 unless one is given, and has no notes. |
| Ledger.AggregatePaid | payments/signals.py:12-14 | Summing the ledger entry by entry gives the paid amount: the sum of the reservation's completed payments, 0 if there are none. |
| Ledger.PaidForConcat | payments/signals.py:12-14 | The paid amount over a concatenated ledger is the sum of the paid amounts over the parts. |
| Ledger.PaidForRemoveAt | payments/signals.py:7-14 | Removing an entry lowers the paid amount by that entry's contribution. |
| Ledger.PaidForReplaceAt | payments/signals.py:6-14 | Replacing an entry changes the paid amount by the difference of the two contributions. |
| Ledger.PaidForIgnoresUncounted | payments/signals.py:12 | An entry that is not completed, or belongs to another reservation, adds nothing. |
| Ledger.PaidForNothingCompleted | payments/signals.py:12-14 | A reservation with no completed payment has paid 0. |
| Ledger.PaidForPermutation | payments/signals.py:12-14 | The paid amount does not depend on the order of the ledger. |
| Ledger.Reconcile | payments/signals.py:8-39 | The paid amount becomes the sum of completed payments. At or above the total, the status is completed. Above zero but below the total, it is confirmed. With nothing paid, it is reserved, unless the reservation is cancelled or attended. The expiry is filled if unset. Nothing else changes. |
| Ledger.ReconcileIdempotent | payments/signals.py:8-39 | Reconciling again on the same ledger changes nothing. |
| Ledger.ReconcileIgnoresFee | payments/signals.py:26-33 | The reservation fee never influences the outcome. |
| Ledger.CompletedIffSettled | payments/signals.py:20-21 | After reconciliation, the status is completed exactly when nothing is outstanding. |
| Ledger.ReconcileOutcomes | payments/signals.py:19-37 | The status after reconciliation is completed, confirmed or reserved. The one exception: a cancelled or attended reservation with nothing paid keeps its status. |
| Ledger.CompletedStaysCompleted | payments/signals.py:20-21 | Recording a further non-negative payment keeps a completed reservation completed. |
| Ledger.RemovingCompletedLowersPaid | payments/signals.py:7-16 | Deleting a completed payment lowers its reservation's paid amount by its amount. |
| Store.IndexOf | payments/views.py:100 | Payment lookup by id finds the position of the payment with that id, or reports that there is none. |
| Store.ReconcileReservation | payments/signals.py:8-39 | The reconciled reservation gets the paid amount, derived status and filled expiry that reconciliation computes from the ledger. Every other reservation and every other table is left as it was. |
| Store.ReconcileRestores | payments/signals.py:8-39 | Reconciling one reservation makes it consistent with the ledger and keeps the rest of the database well formed. |
| Store.AppendPayment | payments/signals.py:6-16 | A new payment gets the next id and is appended. Its reservation is reconciled against the new ledger: paid amount, status and expiry. No other reservation or table changes. |
| Store.AppendPaymentPreservesValid | payments/signals.py:6-16 | Creating a payment keeps every reservation's paid amount equal to its completed payments. |
| Store.RecordPayment | payments/serializers.py:8-11 | A payment written through the create route, which any signed-in user may call. A payment for a reservation that does not exist is refused with a validation error on `reservation`, and nothing is written. Otherwise the payment is appended with the next id and no `paid_at`, whatever the client sent, because that field is read-only. Its reservation is reconciled against the new ledger, so the paid amount grows by the payment's contribution and the status and expiry follow. The other reservations, the proofs, the refunds and the ticket types are unchanged. |
| Store.OpenPaymentCompletes | payments/views.py:82-84 | Any signed-in user can post a completed payment of a reservation's outstanding balance, and the reservation becomes completed without a proof being reviewed. |
| Store.UpdatePaymentAsWritten | payments/signals.py:8-9 | An update replaces the payment's ledger entry and reconciles only the reservation the payment now belongs to. Every other reservation, including the one the payment was moved away from, is left unchanged. |
| Store.UpdateLeavesPreviousReservationStale | payments/signals.py:8-9 | Moving a completed payment to another reservation leaves the database inconsistent. |
| Store.UpdatePayment | payments/signals.py:6-16 | The corrected update replaces the entry and reconciles both the previous and the new reservation against the new ledger. No other reservation or table changes. |
| Store.UpdatePaymentPreservesValid | payments/signals.py:6-16 | The corrected update keeps the ledger invariant. |
| Store.DeletePayment | payments/signals.py:7-16 | Deleting a payment removes it, together with exactly the refunds that reference it (the cascade that keeps every refund's payment in the ledger). Its reservation is reconciled against the shorter ledger, so its paid amount drops by the payment's contribution. Proofs and the other reservations are unchanged. |
| Store.DeletePaymentPreservesValid | payments/signals.py:7-16 | Deleting a payment keeps the invariant: the paid amounts still match the ledger, and because the payment's refunds go with it, every remaining refund still has its payment. |
| Store.MarkPaymentCompleted | payments/models.py:32-37 | Completing a payment and saving it reconciles its reservation against the updated ledger: paid amount, derived status and expiry. Every other reservation is unchanged, and only the ledger and the reservations table change. |
| Store.CompletingAddsAmount | payments/models.py:32-37 | Completing a payment that was not yet completed adds exactly its amount to its reservation's paid amount. |
| ReservationSerializers.WritableFields | reservations/serializers.py:20 | Only the ticket type, quantity and guest email survive from a creation request. |
| ReservationSerializers.ReadOnlyFieldsIgnored | reservations/serializers.py:20 | Requests that differ only in read-only fields are the same input. |
| ReservationSerializers.Validate | reservations/serializers.py:22-37 | A missing ticket type fails on ticket_type. A guest without an email fails on guest_email. A quantity (1 when absent) above the tickets available fails. A signed-in requester's account email replaces any guest email. |
| ReservationSerializers.CapacityBoundary | reservations/serializers.py:34-35 | Asking for exactly the tickets available passes; one more fails. |
| ReservationSerializers.CreateProof | reservations/serializers.py:43-48 | A proof created through the serializer is pending whatever the client sent. It records the uploader only for a signed-in requester. |
| ReservationSerializers.CreateProofIgnoresReadOnlyFields | reservations/serializers.py:43 | The uploader, upload time and verification status a client sends have no effect on the created proof. |
| ReservationViews.PerformCreateAsWritten | reservations/views.py:39-42 | As written, creation fails exactly when the request has no quantity. |
| ReservationViews.PerformCreate | reservations/views.py:34-51 | The holder is the signed-in requester, or nobody. The total is the unit price times the quantity (1 when absent). Nothing is paid, and the hold lasts 24 hours. |
| ReservationViews.OmittedQuantityFailsAsWritten | reservations/views.py:40 | A request without a quantity passes validation but fails in the as-written creation. The corrected one books one ticket. |
| ReservationViews.CreateReservation | reservations/views.py:34-51 | The corrected creation endpoint, where a missing quantity means one ticket. It fails with the validation error, or on a reference-code collision. Otherwise it adds one reservation with the next id, the requested ticket type and the fields above. The other reservations and every other table, ticket types included, are unchanged. |
| ReservationViews.CreateReservationAsWritten | reservations/views.py:34-51 | The creation endpoint as written. A validation error is returned as is. A request without a quantity that passes validation fails with a KeyError and creates nothing. With a quantity, the outcome is exactly the corrected endpoint's. |
| ReservationViews.CreatePreservesValid | reservations/views.py:34-51 | Creating a reservation keeps the ledger invariant: its paid amount, 0, is its completed payments. |
| ReservationViews.CreateIgnoresReadOnlyFields | reservations/serializers.py:20 | Status, amounts, code, expiry and holder in a request have no effect on creation. |
| ReservationViews.UploadPaymentProof | reservations/views.py:71-95 | The checks run in order. First, the reservation must be visible to the requester (reservations/views.py:22-32): with a reference code, only the reservation carrying it; otherwise none for an anonymous requester, all for staff, and their own for anyone else. Then a file and an amount must be given. Otherwise a pending proof is added, recorded under the path the storage gave the file, and the reservation is forced to pending and saved: a set expiry is kept and an unset one is filled. Its paid amount, and every other reservation and payment, stay unchanged. |
| ReservationViews.AnonymousUploadNeedsCode | reservations/views.py:22-28 | Without a reference code, an anonymous payer's proof upload is NotFound. |
| ReservationViews.ReferenceCodeOpensLookup | reservations/views.py:23-25 | With a non-empty reference code, a reservation is visible to any requester exactly when it carries that code. |
| ReservationViews.UploadPreservesValid | reservations/views.py:71-95 | Uploading a proof keeps the ledger invariant. |
| ReservationViews.ProofReferenceInjective | reservations/views.py:129 | Distinct proofs give payments with distinct "PROOF-" references. |
| ReservationViews.ApproveProof | reservations/views.py:110-145 | Approval is staff-only and applies only to a pending proof. It records a completed ZAR bank-transfer payment of the proof's amount, reconciles the reservation and marks the proof approved. It sends a payment confirmation, plus a reservation confirmation iff the reservation is then confirmed or completed. Only the ledger, its counter, the proofs and the reservations change; refunds, ticket types and the other counters are unchanged. |
| ReservationViews.ApprovePreservesValid | reservations/views.py:119-138 | Approval keeps the ledger invariant. |
| ReservationViews.ApproveAddsProofAmount | reservations/views.py:119-138 | Approval adds exactly the proof's amount to the reservation's paid amount. |
| ReservationViews.ApprovalStatus | reservations/views.py:119-143 | After approval, the paid amount is the old one plus the proof's amount. It is completed once that covers the total, and confirmed while it is positive but short of it. |
| ReservationViews.ApproveTwiceRefused | reservations/views.py:102-105 | An approved proof cannot be approved again, so it is never paid twice. |
| ReservationViews.RejectProof | reservations/views.py:147-163 | Rejection is staff-only and applies only to a pending proof. The proof is rejected with the given notes and no payment is recorded. A pending reservation goes back to reserved and is saved, so an unset expiry is filled; nothing else about it changes. A reservation with any other status is kept. The other reservations and the other tables are unchanged. |
| ReservationViews.RejectPreservesValid | reservations/views.py:147-163 | Rejection keeps the ledger invariant. |
| PaymentViews.MarkCompleted | payments/views.py:94-105 | Non-staff are refused before the lookup, and an unknown payment is NotFound. Otherwise the payment is completed with the request's reference, and its reservation is reconciled: paid amount, derived status and expiry. Every other reservation is unchanged, and only the ledger and the reservations table change. |
| PaymentViews.MarkCompletedPreservesValid | payments/views.py:94-105 | Marking a payment completed keeps the ledger invariant. |
| PaymentViews.RefundActionOn | payments/views.py:163-199 | Refund actions are staff-only, and an unknown refund is NotFound. Otherwise only that refund changes, by the status write of the action. Payments and reservations stay as they were, and the invariant is kept. |
| PaymentViews.UploadForReservation | payments/views.py:32-80 | The checks run in order: signed in, file present, allowed content type, size within the maximum. An unknown reservation then fails on the write. Otherwise one pending proof with amount 0 is added, and the reservation is untouched. |
| Scenarios.InstalmentConfirms | reservations/views.py:71-145 | On a 200.00 reservation, a guest who gives its reference code uploads a 50.00 proof, which makes the reservation pending. Approving the proof leaves 50.00 paid, status confirmed, and a reservation confirmation among the notices. |
| Scenarios.SecondInstalmentCompletes | payments/signals.py:20-21 | After the first instalment, a guest uploads a second proof of the remaining 150.00. Approving it completes the reservation with 200.00 paid and nothing outstanding. |
| Scenarios.RejectedProofReverts | reservations/views.py:147-163 | Rejecting the only proof of a pending reservation puts it back to reserved with nothing paid and an empty ledger. |

## Left out

- HTTP plumbing: status codes, response bodies and routing. Errors are a `Common.Error` value instead.
- Listing endpoints and their querysets. The lookups that decide an outcome are modelled: reservation visibility for proof upload (`ReservationViews.ReservationVisible`) and the pending-only staff lookup of proofs. Payments and refunds are looked up by staff, who see every row.
- File storage, UUID file names and file URLs. The path the storage gives an uploaded file is a parameter (`storedPath`) of both proof uploads.
- Email sending, calendar links and ICS files (reservations/services.py). Approval returns the notices it asks for; it does not send them.
- Analytics, events and the payment statistics endpoint: they fall outside the reservation and payment core.
- Password hashing and `authenticate`: they are Django library code.
- Users.CreateUser: there is no user table. The unique email and username columns (users/models.py:44) make the save fail for an address already in use; the model does not promise that failure. Email normalisation is an opaque parameter (`normalize`), because BaseUserManager.normalize_email is library code.
- Email format validation (`EmailField`): guest emails are plain strings.
- Decimal arithmetic, `max_digits` and field length limits: money is unbounded integer cents.
- Concurrency: two reservations racing for the last ticket can oversell. The model is sequential, and the tickets available are only compared, never decremented, as in the source.
- Non-boolean values for `is_staff`/`is_superuser` in create_superuser: the flags are `Option<bool>`.
- The generic CRUD routes of the view sets (create, update, delete, list) are not modelled as endpoints. Their effect on the ledger is modelled by `Store.RecordPayment`, `Store.DeletePayment` and `Store.UpdatePaymentAsWritten` (an update as the handler treats it). `Store.UpdatePayment` is the corrected update.
- ReservationViews.CreateReservation: this is the corrected endpoint, which books one ticket when the quantity is left out. The source fails there; that behaviour is `ReservationViews.CreateReservationAsWritten`.
- PaymentViews.UploadForReservation: the error message lists the allowed types and the size limit in megabytes; the model keeps only the message prefix.
- Store.UpdatePaymentAsWritten: the replacement ledger entry is taken whole, so the update route's read-only `paid_at` is not re-imposed. The same holds for `Store.UpdatePayment`.
- ReservationViews.UploadPaymentProof: an amount that is not a decimal is modelled as a `ServerError`; how Django reports it is not modelled.

## Findings

| source | as written | input that shows it | evidently intended | confidence | as-written member | corrected member |
|---|---|---|---|---|---|---|
| reservations/views.py:40 | `perform_create` reads `validated_data['quantity']`. The model default is not copied into validated data, so the read fails. | A signed-in requester books ticket type 7 (price 10000, 5 available) without a quantity. Validation passes with the default 1, then creation raises KeyError. | A missing quantity means one ticket, as `validate` (reservations/serializers.py:32) and the model default (reservations/models.py:22) assume. | medium, not executed | ReservationViews.PerformCreateAsWritten | ReservationViews.PerformCreate |
| payments/signals.py:8-9 | The post-save handler reconciles only `instance.reservation`, the reservation the payment belongs to after the save. | A completed payment of 100 for reservation 0 (total 100, paid 100) is moved to reservation 1. Reservation 0 still shows 100 paid, with no completed payments left. | Every reservation's paid amount equals its completed payments after any ledger write. So both the previous and the new reservation are reconciled. | high, not executed | Store.UpdatePaymentAsWritten | Store.UpdatePayment |

=== FILE: common.dfy ===
/**
 Shared vocabulary of the ticketing backend model: optional values, the
 outcome of an operation (a value or one of the errors the views and model
 managers raise), bytes, and the time and money conventions.

 Money is counted in integer cents (the source's two-decimal amounts), and
 time is an integer number of seconds.
 */
module Common {

  /** A value that may be absent (a missing request field, a null column). */
  datatype Option<+T> = None | Some(value: T) {

    /** The value if present, otherwise the given default (Python's `dict.get(k, d)`). */
    function GetOr(default: T): T {
      match this
      case Some(v) => v
      case None => default
    }
  }

  /** The kinds of failure an operation reports instead of changing state. */
  datatype Error =
    | ValidationError(field: string)   // a serializer rejects the input (HTTP 400)
    | BadRequest(message: string)      // a view rejects the request itself (HTTP 400)
    | ValueError(message: string)      // a model manager raises ValueError
    | PermissionDenied                 // HTTP 403 from a staff or authentication check
    | NotFound                         // HTTP 404 from an object lookup
    | ServerError(reason: string)      // an unhandled exception (HTTP 500)

  /** Either the new value/state, or the error that left everything as it was. */
  datatype Result<+T> = Ok(value: T) | Err(error: Error) {

    predicate IsFailure() {
      Err?
    }

    function PropagateFailure<U>(): Result<U>
      requires Err?
    {
      Err(error)
    }

    function Extract(): T
      requires Ok?
    {
      value
    }
  }

  type byte = x: int | 0 <= x < 256

  /** A file attached to a request: its name, declared content type and size in bytes. */
  datatype UploadedFile = UploadedFile(name: string, contentType: string, size: nat)

  /** An attached file is truthy when it has a name, as Django's `File.__bool__` says. */
  predicate FileGiven(file: Option<UploadedFile>) {
    file.Some? && |file.value.name| > 0
  }

  /** Length of the hold a new reservation gets before it expires: 24 hours. */
  const ReservationHold: int := 24 * 60 * 60
}

=== FILE: ledger.dfy ===
/**
 The reconciliation engine (payments/signals.py): a reservation's paid amount
 is the sum of its completed ledger entries, and its status is derived from
 that sum and the total price. The handler runs after every save and every
 delete of a payment.
 */
module Ledger {
  import opened Common
  import P = Payments
  import R = Reservations

  /** Whether a ledger entry is counted towards reservation `rid`'s paid amount. */
  predicate Counts(p: P.Payment, rid: nat) {
    p.reservation == rid && p.status == P.Completed
  }

  /** What one ledger entry adds to reservation `rid`'s paid amount. */
  function Contribution(p: P.Payment, rid: nat): int {
    if Counts(p, rid) then p.amount else 0
  }

  /**
   The sum of the amounts of reservation `rid`'s completed payments, 0 when
   there are none (the aggregate query's `or 0`).
   */
  function PaidFor(ledger: seq<P.Payment>, rid: nat): int {
    if |ledger| == 0 then 0 else Contribution(ledger[0], rid) + PaidFor(ledger[1..], rid)
  }

  /**
   The aggregate query run over the ledger entry by entry: only entries that
   belong to the reservation and are completed are added up.
   */
  method AggregatePaid(ledger: seq<P.Payment>, rid: nat) returns (total: int)
    ensures total == PaidFor(ledger, rid)
  {
    total := 0;
    var i := 0;
    while i < |ledger|
      invariant 0 <= i <= |ledger|
      invariant total == PaidFor(ledger[..i], rid)
    {
      PaidForAppend(ledger[..i], ledger[i], rid);
      assert ledger[..i + 1] == ledger[..i] + [ledger[i]];
      if ledger[i].reservation == rid && ledger[i].status == P.Completed {
        total := total + ledger[i].amount;
      }
      i := i + 1;
    }
    assert ledger[..i] == ledger;
  }

  lemma {:induction false} PaidForConcat(a: seq<P.Payment>, b: seq<P.Payment>, rid: nat)
    ensures PaidFor(a + b, rid) == PaidFor(a, rid) + PaidFor(b, rid)
  {
    if |a| == 0 {
      assert a + b == b;
    } else {
      assert (a + b)[1..] == a[1..] + b;
      PaidForConcat(a[1..], b, rid);
    }
  }

  /** A new entry raises the paid amount by exactly its own contribution. */
  lemma PaidForAppend(ledger: seq<P.Payment>, p: P.Payment, rid: nat)
    ensures PaidFor(ledger + [p], rid) == PaidFor(ledger, rid) + Contribution(p, rid)
  {
    PaidForConcat(ledger, [p], rid);
  }

  /** The ledger with its entry at index `i` removed. */
  function RemoveAt(ledger: seq<P.Payment>, i: nat): (rest: seq<P.Payment>)
    requires i < |ledger|
    ensures |rest| == |ledger| - 1
    ensures forall k :: 0 <= k < i ==> rest[k] == ledger[k]
    ensures forall k :: i <= k < |rest| ==> rest[k] == ledger[k + 1]
  {
    ledger[..i] + ledger[i + 1..]
  }

  /** Removing an entry lowers the paid amount by exactly its contribution. */
  lemma PaidForRemoveAt(ledger: seq<P.Payment>, i: nat, rid: nat)
    requires i < |ledger|
    ensures PaidFor(RemoveAt(ledger, i), rid) == PaidFor(ledger, rid) - Contribution(ledger[i], rid)
  {
    assert ledger == ledger[..i] + ([ledger[i]] + ledger[i + 1..]);
    PaidForConcat(ledger[..i], [ledger[i]] + ledger[i + 1..], rid);
    PaidForConcat([ledger[i]], ledger[i + 1..], rid);
    PaidForConcat(ledger[..i], ledger[i + 1..], rid);
  }

  /** Replacing an entry swaps its contribution for that of the replacement. */
  lemma PaidForReplaceAt(ledger: seq<P.Payment>, i: nat, p: P.Payment, rid: nat)
    requires i < |ledger|
    ensures PaidFor(ledger[i := p], rid)
            == PaidFor(ledger, rid) - Contribution(ledger[i], rid) + Contribution(p, rid)
  {
    var updated := ledger[i := p];
    assert ledger == ledger[..i] + ([ledger[i]] + ledger[i + 1..]);
    assert updated == ledger[..i] + ([p] + ledger[i + 1..]);
    PaidForConcat(ledger[..i], [ledger[i]] + ledger[i + 1..], rid);
    PaidForConcat([ledger[i]], ledger[i + 1..], rid);
    PaidForConcat(ledger[..i], [p] + ledger[i + 1..], rid);
    PaidForConcat([p], ledger[i + 1..], rid);
  }

  /**
   A pending, failed or refunded payment (or one of another reservation)
   never changes the paid amount, wherever it sits in the ledger.
   */
  lemma PaidForIgnoresUncounted(ledger: seq<P.Payment>, i: nat, p: P.Payment, rid: nat)
    requires i <= |ledger|
    requires p.status != P.Completed || p.reservation != rid
    ensures PaidFor(ledger[..i] + [p] + ledger[i..], rid) == PaidFor(ledger, rid)
  {
    assert ledger == ledger[..i] + ledger[i..];
    PaidForConcat(ledger[..i] + [p], ledger[i..], rid);
    PaidForConcat(ledger[..i], [p], rid);
    PaidForConcat(ledger[..i], ledger[i..], rid);
  }

  /** With no completed payment of the reservation, nothing is paid. */
  lemma {:induction false} PaidForNothingCompleted(ledger: seq<P.Payment>, rid: nat)
    requires forall k :: 0 <= k < |ledger| ==> !Counts(ledger[k], rid)
    ensures PaidFor(ledger, rid) == 0
  {
    if |ledger| > 0 {
      PaidForNothingCompleted(ledger[1..], rid);
    }
  }

  /** Removing an entry removes exactly one copy of it from the ledger's multiset. */
  lemma MultisetRemoveAt(ledger: seq<P.Payment>, i: nat)
    requires i < |ledger|
    ensures multiset(RemoveAt(ledger, i)) == multiset(ledger) - multiset{ledger[i]}
  {
    assert ledger == ledger[..i] + [ledger[i]] + ledger[i + 1..];
    assert multiset(ledger) == multiset(ledger[..i]) + multiset{ledger[i]} + multiset(ledger[i + 1..]);
  }

  /** The order of the ledger does not matter: the sum depends only on its entries. */
  lemma {:induction false} PaidForPermutation(a: seq<P.Payment>, b: seq<P.Payment>, rid: nat)
    requires multiset(a) == multiset(b)
    ensures PaidFor(a, rid) == PaidFor(b, rid)
    decreases |a|
  {
    if |a| > 0 {
      assert a[0] in multiset(b);
      var j :| 0 <= j < |b| && b[j] == a[0];
      MultisetRemoveAt(a, 0);
      MultisetRemoveAt(b, j);
      assert RemoveAt(a, 0) == a[1..];
      PaidForPermutation(a[1..], RemoveAt(b, j), rid);
      PaidForRemoveAt(b, j, rid);
    } else {
      assert |b| == |multiset(b)| == 0;
    }
  }

  /**
   The handler's status decision from the paid amount, the total price, the
   deposit requirement (fee times quantity) and the current status. Both
   deposit outcomes lead to `Confirmed`, as in the source.
   */
  function DeriveStatus(paid: int, total: int, depositRequirement: int, current: R.Status): R.Status {
    if paid >= total then R.Completed
    else if paid > 0 then
      if paid >= depositRequirement then R.Confirmed else R.Confirmed
    else if current != R.Cancelled && current != R.Attended then R.Reserved
    else current
  }

  /**
   `update_reservation_payment_status`: recomputes the paid amount from the
   ledger, derives the status, and saves the reservation. `fee` is the
   ticket type's per-ticket reservation fee.
   */
  function Reconcile(r: R.Reservation, ledger: seq<P.Payment>, fee: int, now: int): (s: R.Reservation)
    ensures s.amountPaid == PaidFor(ledger, r.id)
    ensures s.amountPaid >= r.totalAmount ==> s.status == R.Completed
    ensures 0 < s.amountPaid < r.totalAmount ==> s.status == R.Confirmed
    ensures s.amountPaid <= 0 && s.amountPaid < r.totalAmount ==>
              s.status == (if r.status in {R.Cancelled, R.Attended} then r.status else R.Reserved)
    ensures s.expiresAt == Some(r.expiresAt.GetOr(now + ReservationHold))
    ensures s.(amountPaid := r.amountPaid, status := r.status, expiresAt := r.expiresAt) == r
  {
    var paid := PaidFor(ledger, r.id);
    var status := DeriveStatus(paid, r.totalAmount, fee * r.quantity, r.status);
    R.Save(r.(amountPaid := paid, status := status), now)
  }

  /** Running reconciliation again on an unchanged ledger changes nothing. */
  lemma ReconcileIdempotent(r: R.Reservation, ledger: seq<P.Payment>, fee: int, now: int, later: int)
    ensures Reconcile(Reconcile(r, ledger, fee, now), ledger, fee, later) == Reconcile(r, ledger, fee, now)
  {
  }

  /** The reservation fee never influences the outcome. */
  lemma ReconcileIgnoresFee(r: R.Reservation, ledger: seq<P.Payment>, fee1: int, fee2: int, now: int)
    ensures Reconcile(r, ledger, fee1, now) == Reconcile(r, ledger, fee2, now)
  {
  }

  /** After reconciliation the status is completed exactly when nothing is outstanding. */
  lemma CompletedIffSettled(r: R.Reservation, ledger: seq<P.Payment>, fee: int, now: int)
    ensures var s := Reconcile(r, ledger, fee, now);
            s.status == R.Completed <==> R.OutstandingBalance(s) <= 0
  {
  }

  /**
   Reconciliation only ever yields completed, confirmed or reserved, except
   that a cancelled or attended reservation with nothing paid keeps its status.
   */
  lemma ReconcileOutcomes(r: R.Reservation, ledger: seq<P.Payment>, fee: int, now: int)
    ensures Reconcile(r, ledger, fee, now).status in {R.Completed, R.Confirmed, R.Reserved, r.status}
    ensures r.status !in {R.Cancelled, R.Attended} ==>
              Reconcile(r, ledger, fee, now).status in {R.Completed, R.Confirmed, R.Reserved}
  {
  }

  /**
   Once settled, a reservation stays completed when a further payment is
   recorded, as long as that payment does not carry a negative amount.
   */
  lemma CompletedStaysCompleted(r: R.Reservation, ledger: seq<P.Payment>, p: P.Payment, fee: int, now: int)
    requires Reconcile(r, ledger, fee, now).status == R.Completed
    requires p.amount >= 0
    ensures Reconcile(r, ledger + [p], fee, now).status == R.Completed
  {
    PaidForAppend(ledger, p, r.id);
  }

  /** Deleting a completed payment of the reservation lowers its paid amount by that amount. */
  lemma RemovingCompletedLowersPaid(r: R.Reservation, ledger: seq<P.Payment>, i: nat, fee: int, now: int)
    requires i < |ledger| && Counts(ledger[i], r.id)
    ensures Reconcile(r, RemoveAt(ledger, i), fee, now).amountPaid
            == Reconcile(r, ledger, fee, now).amountPaid - ledger[i].amount
  {
    PaidForRemoveAt(ledger, i, r.id);
  }
}

=== FILE: payment_views.dfy ===
/**
 The payment endpoints (payments/views.py): staff completion of a payment,
 the staff-only refund status actions, and the proof upload that attaches a
 file to a reservation.
 */
module PaymentViews {
  import opened Common
  import opened Users
  import P = Payments
  import R = Reservations
  import L = Ledger
  import S = Store

  /**
   `mark_completed`: non-staff are refused before the lookup; staff complete
   the payment with the request's transaction reference, which reconciles
   its reservation.
   */
  function MarkCompleted(db: S.Db, requester: Requester, pid: nat, reference: Option<string>, now: int)
    : (r: Result<S.Db>)
    requires S.WellFormed(db)
    ensures !requester.IsStaff() ==> r == Err(PermissionDenied)
    ensures requester.IsStaff() && S.IndexOf(db.payments, pid).None? ==> r == Err(NotFound)
    ensures r.Ok? <==> requester.IsStaff() && S.IndexOf(db.payments, pid).Some?
    ensures r.Ok? ==> var i := S.IndexOf(db.payments, pid).value;
                      var rid := db.payments[i].reservation;
                      && r.value.payments == db.payments[i := P.MarkAsCompleted(db.payments[i], reference, now)]
                      && r.value.payments[i].status == P.Completed
                      && r.value.reservations.Keys == db.reservations.Keys
                      && r.value.reservations[rid].amountPaid == L.PaidFor(r.value.payments, rid)
                      && r.value.reservations[rid] == L.Reconcile(db.reservations[rid], r.value.payments, S.FeeOf(db, rid), now)
                      && (forall x :: x in db.reservations && x != rid ==> r.value.reservations[x] == db.reservations[x])
                      && r.value == db.(payments := r.value.payments, reservations := r.value.reservations)
  {
    if !requester.IsStaff() then Err(PermissionDenied)
    else S.MarkPaymentCompleted(db, pid, reference, now)
  }

  lemma MarkCompletedPreservesValid(db: S.Db, requester: Requester, pid: nat, reference: Option<string>, now: int)
    requires S.Valid(db)
    requires MarkCompleted(db, requester, pid, reference, now).Ok?
    ensures S.Valid(MarkCompleted(db, requester, pid, reference, now).value)
  {
    var i := S.IndexOf(db.payments, pid).value;
    var completed := P.MarkAsCompleted(db.payments[i], reference, now);
    assert completed.(id := pid) == completed;
    S.UpdatePaymentPreservesValid(db, pid, completed, now);
  }

  /** The three staff actions on a refund request. */
  datatype RefundAction = Approve | Process | Reject(notes: Option<string>)

  /** The refund after an action: a status write, plus the time or the notes. */
  function ApplyRefundAction(rf: P.Refund, action: RefundAction, now: int): (a: P.Refund)
    ensures a.id == rf.id && a.payment == rf.payment
  {
    match action
    case Approve => P.ApproveRefund(rf)
    case Process => P.ProcessRefund(rf, now)
    case Reject(notes) => P.RejectRefund(rf, notes)
  }

  /**
   `approve`, `process` and `reject` on a refund: staff only, whatever the
   refund's current status. Only the refund row changes; the ledger and the
   reservations' paid amounts and statuses are left as they were.
   */
  function RefundActionOn(db: S.Db, requester: Requester, refundId: nat, action: RefundAction, now: int)
    : (r: Result<S.Db>)
    ensures !requester.IsStaff() ==> r == Err(PermissionDenied)
    ensures requester.IsStaff() && refundId !in db.refunds ==> r == Err(NotFound)
    ensures r.Ok? <==> requester.IsStaff() && refundId in db.refunds
    ensures r.Ok? ==> && refundId in r.value.refunds
                      && r.value == db.(refunds := r.value.refunds)
                      && r.value.refunds == db.refunds[refundId := r.value.refunds[refundId]]
    ensures r.Ok? && action.Approve? ==> r.value.refunds[refundId] == db.refunds[refundId].(status := P.Approved)
    ensures r.Ok? && action.Process? ==>
              r.value.refunds[refundId] == db.refunds[refundId].(status := P.Processed, processedAt := Some(now))
    ensures r.Ok? && action.Reject? ==>
              r.value.refunds[refundId] == db.refunds[refundId].(status := P.Rejected, notes := action.notes.GetOr(""))
    ensures r.Ok? && S.Valid(db) ==> S.Valid(r.value)
  {
    if !requester.IsStaff() then Err(PermissionDenied)
    else if refundId !in db.refunds then Err(NotFound)
    else
      var rf := ApplyRefundAction(db.refunds[refundId], action, now);
      S.RefundWriteKeepsValid(db, refundId, rf);
      Ok(db.(refunds := db.refunds[refundId := rf]))
  }

  /**
   `upload_for_reservation`: for an authenticated requester, a missing file,
   a content type outside the allowed ones or a size above the maximum is
   refused before anything is stored. Otherwise a pending proof with amount 0
   is created at the storage path the file was saved under; a missing or
   unknown reservation fails when the row is written. The reservation itself
   is not touched.
   */
  function UploadForReservation(db: S.Db, requester: Requester, reservationId: Option<nat>,
                                file: Option<UploadedFile>, allowedTypes: set<string>, maxSize: nat,
                                storedPath: string, now: int): (r: Result<S.Db>)
    requires S.WellFormed(db)
    ensures requester.Anonymous? ==> r == Err(PermissionDenied)
    ensures requester.Authenticated? && !FileGiven(file) ==> r == Err(BadRequest("No file provided"))
    ensures requester.Authenticated? && FileGiven(file) && file.value.contentType !in allowedTypes ==>
              r == Err(BadRequest("File type not allowed"))
    ensures (&& requester.Authenticated? && FileGiven(file) && file.value.contentType in allowedTypes
             && file.value.size > maxSize) ==> r == Err(BadRequest("File too large"))
    ensures r.Ok? <==> && requester.Authenticated? && FileGiven(file)
                       && file.value.contentType in allowedTypes && file.value.size <= maxSize
                       && reservationId.Some? && reservationId.value in db.reservations
    ensures r.Ok? ==> && r.value.proofs == db.proofs[db.nextProof := R.PaymentProof(
                           db.nextProof, reservationId.value, Some(requester.user.id), storedPath, now,
                           R.ProofStatus.Pending, 0, "")]
                      && r.value == db.(proofs := r.value.proofs, nextProof := db.nextProof + 1)
    ensures r.Ok? && S.Valid(db) ==> S.Valid(r.value)
  {
    if requester.Anonymous? then Err(PermissionDenied)
    else if !FileGiven(file) then Err(BadRequest("No file provided"))
    else if file.value.contentType !in allowedTypes then Err(BadRequest("File type not allowed"))
    else if file.value.size > maxSize then Err(BadRequest("File too large"))
    else if reservationId.None? || reservationId.value !in db.reservations then
      Err(ServerError("reservation does not exist"))
    else
      var proof := R.NewPaymentProof(db.nextProof, reservationId.value, Some(requester.user.id), storedPath, None, now);
      Ok(db.(proofs := db.proofs[db.nextProof := proof], nextProof := db.nextProof + 1))
  }
}

=== FILE: payments.dfy ===
/**
 Ledger entries and refunds (payments/models.py): the payment record with
 its defaults, `mark_as_completed`, and the refund record with its default
 status and the status writes staff make to it.
 */
module Payments {
  import opened Common

  datatype PaymentStatus = Pending | Completed | Failed | Refunded

  datatype PaymentMethod = BankTransfer | CreditCard | DebitCard | Cash

  /** One entry of a reservation's ledger; `paidAt` is set on completion. */
  datatype Payment = Payment(
    id: nat,
    reservation: nat,
    amount: int,
    currency: string,
    status: PaymentStatus,
    paymentMethod: PaymentMethod,
    transactionReference: string,
    paidAt: Option<int>)

  const DefaultCurrency: string := "ZAR"

  /** The fields a caller supplies when creating a payment; absent ones take defaults. */
  datatype PaymentFields = PaymentFields(
    reservation: nat,
    amount: int,
    paymentMethod: PaymentMethod,
    currency: Option<string>,
    status: Option<PaymentStatus>,
    transactionReference: Option<string>,
    paidAt: Option<int>)

  /**
   A payment as the model constructs it: status pending, currency ZAR and an
   empty transaction reference unless given.
   */
  function NewPayment(id: nat, fields: PaymentFields): (p: Payment)
    ensures p.id == id && p.reservation == fields.reservation && p.amount == fields.amount
    ensures fields.status.None? ==> p.status == Pending
    ensures fields.currency.None? ==> p.currency == DefaultCurrency
    ensures fields.transactionReference.None? ==> p.transactionReference == ""
    ensures fields.status.Some? ==> p.status == fields.status.value
    ensures fields.currency.Some? ==> p.currency == fields.currency.value
    ensures fields.transactionReference.Some? ==> p.transactionReference == fields.transactionReference.value
    ensures p.paymentMethod == fields.paymentMethod && p.paidAt == fields.paidAt
  {
    Payment(id, fields.reservation, fields.amount, fields.currency.GetOr(DefaultCurrency),
            fields.status.GetOr(Pending), fields.paymentMethod, fields.transactionReference.GetOr(""),
            fields.paidAt)
  }

  /**
   `mark_as_completed`: the payment becomes completed and is stamped with the
   time; a non-empty reference replaces the stored one, an absent or empty
   one keeps it. Nothing else about the payment changes. (Saving it re-runs
   reconciliation; see `Store.MarkPaymentCompleted`.)
   */
  function MarkAsCompleted(p: Payment, reference: Option<string>, now: int): (q: Payment)
    ensures q.status == Completed && q.paidAt == Some(now)
    ensures reference.Some? && |reference.value| > 0 ==> q.transactionReference == reference.value
    ensures reference.None? || |reference.value| == 0 ==> q.transactionReference == p.transactionReference
    ensures q.(status := p.status, paidAt := p.paidAt, transactionReference := p.transactionReference) == p
  {
    var stamped := p.(status := Completed, paidAt := Some(now));
    if reference.Some? && |reference.value| > 0 then stamped.(transactionReference := reference.value)
    else stamped
  }

  datatype RefundStatus = Requested | Approved | Processed | Rejected

  datatype Refund = Refund(
    id: nat,
    payment: nat,
    amount: int,
    reason: string,
    status: RefundStatus,
    requestedBy: nat,
    requestedAt: int,
    processedAt: Option<int>,
    notes: string)

  /** A new refund request: status requested, not processed, no notes. */
  function NewRefund(id: nat, payment: nat, amount: int, reason: string, requestedBy: nat, now: int): (rf: Refund)
    ensures rf.status == Requested && rf.processedAt.None? && rf.notes == ""
    ensures rf.payment == payment && rf.amount == amount && rf.requestedAt == now
  {
    Refund(id, payment, amount, reason, Requested, requestedBy, now, None, "")
  }

  /** Staff approval of a refund: only the status changes, whatever it was. */
  function ApproveRefund(rf: Refund): (r: Refund)
    ensures r.status == Approved
    ensures r.(status := rf.status) == rf
  {
    rf.(status := Approved)
  }

  /** Staff processing of a refund: status processed and the time stamped. */
  function ProcessRefund(rf: Refund, now: int): (r: Refund)
    ensures r.status == Processed && r.processedAt == Some(now)
    ensures r.(status := rf.status, processedAt := rf.processedAt) == rf
  {
    rf.(status := Processed, processedAt := Some(now))
  }

  /** Staff rejection of a refund: status rejected, notes replaced (empty when none are given). */
  function RejectRefund(rf: Refund, notes: Option<string>): (r: Refund)
    ensures r.status == Rejected && r.notes == notes.GetOr("")
    ensures r.(status := rf.status, notes := rf.notes) == rf
  {
    rf.(status := Rejected, notes := notes.GetOr(""))
  }
}

=== FILE: permissions.dfy ===
/**
 The `IsAdminUserForCRUD` permission (users/permissions.py): anyone may read,
 only authenticated staff or superusers may write.
 */
module Permissions {
  import opened Users

  /** The HTTP methods that only read. */
  const SafeMethods: set<string> := {"GET", "HEAD", "OPTIONS"}

  /** Whether the requester holds either administrative flag. */
  predicate IsAdministrator(requester: Requester) {
    requester.Authenticated? && (requester.user.isStaff || requester.user.isSuperuser)
  }

  function HasPermission(verb: string, requester: Requester): (allowed: bool)
    ensures verb in SafeMethods ==> allowed
    ensures verb !in SafeMethods ==> (allowed <==> IsAdministrator(requester))
  {
    verb in SafeMethods || IsAdministrator(requester)
  }

  /** An anonymous requester is refused every verb that is not a safe one. */
  lemma AnonymousCannotWrite(verb: string)
    requires verb !in SafeMethods
    ensures !HasPermission(verb, Anonymous)
  {
  }

  /** Either flag alone lets an authenticated account write. */
  lemma EitherFlagSuffices(verb: string, user: User)
    requires user.isStaff || user.isSuperuser
    ensures HasPermission(verb, Authenticated(user))
  {
  }

  /** An account with neither flag may only read. */
  lemma PlainAccountReadsOnly(verb: string, user: User)
    requires !user.isStaff && !user.isSuperuser
    ensures HasPermission(verb, Authenticated(user)) <==> verb in SafeMethods
  {
  }
}

=== FILE: reservation_views.dfy ===
/**
 The reservation endpoints (reservations/views.py): creating a reservation,
 uploading a proof of payment, and staff approval or rejection of a proof.
 Each operation returns the new database or the error that left the
 database as it was.
 */
module ReservationViews {
  import opened Common
  import opened Users
  import P = Payments
  import R = Reservations
  import L = Ledger
  import S = Store
  import RS = ReservationSerializers
  import Text

  /**
   `perform_create` as written: it reads `validated_data['quantity']`, which
   is absent when the client left the quantity out (the model default is
   not copied into validated data), so such a request fails with a KeyError.
   */
  function PerformCreateAsWritten(v: RS.ValidatedReservation, requester: Requester, now: int)
    : (r: Result<R.ReservationFields>)
    ensures r.Err? <==> v.quantity.None?
    ensures r.Ok? ==> r.value.totalAmount == v.ticketType.price * v.quantity.value
  {
    if v.quantity.None? then Err(ServerError("KeyError: 'quantity'"))
    else Ok(CreationFields(v, v.quantity.value, requester, now))
  }

  /**
   `perform_create` with the quantity defaulting to 1, as `validate` already
   assumes: the requester (or nobody) becomes the holder, the total is the
   unit price times the quantity, nothing is paid and the hold lasts 24 hours.
   */
  function PerformCreate(v: RS.ValidatedReservation, requester: Requester, now: int): (f: R.ReservationFields)
    ensures f.totalAmount == v.ticketType.price * v.quantity.GetOr(1)
    ensures f.quantity == Some(v.quantity.GetOr(1))
    ensures f.amountPaid == Some(0) && f.expiresAt == Some(now + ReservationHold) && f.status.None?
    ensures requester.Authenticated? ==> f.user == Some(requester.user.id)
    ensures requester.Anonymous? ==> f.user.None?
    ensures f.guestEmail == v.guestEmail && f.ticketType == v.ticketTypeId
  {
    CreationFields(v, v.quantity.GetOr(1), requester, now)
  }

  function CreationFields(v: RS.ValidatedReservation, quantity: nat, requester: Requester, now: int): R.ReservationFields {
    var holder := if requester.Authenticated? then Some(requester.user.id) else None;
    R.ReservationFields(holder, v.guestEmail, v.ticketTypeId, Some(quantity), None,
                        v.ticketType.price * quantity, Some(0), Some(now + ReservationHold))
  }

  /**
   A request without a quantity passes validation, then fails in the
   as-written `perform_create`; the corrected one books one ticket.
   */
  lemma OmittedQuantityFailsAsWritten(user: User, now: int)
    ensures var ticketTypes := map[7 := R.TicketType(10000, 2000, 5)];
            var input := RS.ReservationInput(Some(7), None, None);
            var v := RS.Validate(input, Authenticated(user), ticketTypes);
            && v.Ok?
            && PerformCreateAsWritten(v.value, Authenticated(user), now).Err?
            && PerformCreate(v.value, Authenticated(user), now).quantity == Some(1)
            && PerformCreate(v.value, Authenticated(user), now).totalAmount == 10000
  {
  }

  /**
   Creating a reservation: validation, `perform_create`, then the row with
   its generated reference code (from `entropy`, the six random bytes); a
   code already in use violates the unique column.
   */
  function CreateReservation(db: S.Db, requester: Requester, payload: RS.ReservationPayload,
                             entropy: seq<byte>, now: int): (r: Result<S.Db>)
    requires S.WellFormed(db) && |entropy| == R.ReferenceEntropy
    ensures var v := RS.Validate(RS.WritableFields(payload), requester, db.ticketTypes);
            v.Err? ==> r == Err(v.error)
    ensures r.Ok? ==> RS.Validate(RS.WritableFields(payload), requester, db.ticketTypes).Ok?
    ensures r.Ok? <==> RS.Validate(RS.WritableFields(payload), requester, db.ticketTypes).Ok?
                       && !S.CodeInUse(db, R.GenerateReservationCode(entropy))
    ensures r.Ok? ==>
              var rid := db.nextReservation;
              var after := r.value;
              var ticketType := db.ticketTypes[payload.ticketType.value];
              && after.reservations.Keys == db.reservations.Keys + {rid}
              && rid !in db.reservations
              && after.reservations[rid].status == R.Reserved
              && after.reservations[rid].amountPaid == 0
              && after.reservations[rid].quantity == payload.quantity.GetOr(1)
              && after.reservations[rid].totalAmount == ticketType.price * payload.quantity.GetOr(1)
              && after.reservations[rid].expiresAt == Some(now + ReservationHold)
              && after.reservations[rid].reservedAt == now
              && after.reservations[rid].referenceCode == R.GenerateReservationCode(entropy)
              && after.reservations[rid].user == (if requester.Authenticated? then Some(requester.user.id) else None)
              && (requester.Authenticated? ==> after.reservations[rid].guestEmail == requester.user.email)
              && (requester.Anonymous? ==> Some(after.reservations[rid].guestEmail) == payload.guestEmail)
              && after.reservations[rid].id == rid
              && after.reservations[rid].ticketType == payload.ticketType.value
              && (forall x :: x in db.reservations ==> after.reservations[x] == db.reservations[x])
              && after == db.(reservations := after.reservations, nextReservation := rid + 1)
  {
    var v :- RS.Validate(RS.WritableFields(payload), requester, db.ticketTypes);
    var fields := PerformCreate(v, requester, now);
    var code := R.GenerateReservationCode(entropy);
    if S.CodeInUse(db, code) then Err(ServerError("duplicate reference code"))
    else
      var rid := db.nextReservation;
      Ok(db.(reservations := db.reservations[rid := R.NewReservation(rid, fields, code, now)],
             nextReservation := rid + 1))
  }

  /**
   The creation endpoint as written: the same steps as `CreateReservation`,
   but through the as-written `perform_create`, so a request that leaves out
   the quantity passes validation and then fails without creating anything.
   With a quantity it is exactly the corrected endpoint.
   */
  function CreateReservationAsWritten(db: S.Db, requester: Requester, payload: RS.ReservationPayload,
                                      entropy: seq<byte>, now: int): (r: Result<S.Db>)
    requires S.WellFormed(db) && |entropy| == R.ReferenceEntropy
    ensures var v := RS.Validate(RS.WritableFields(payload), requester, db.ticketTypes);
            v.Err? ==> r == Err(v.error)
    ensures RS.Validate(RS.WritableFields(payload), requester, db.ticketTypes).Ok? && payload.quantity.None? ==>
              r == Err(ServerError("KeyError: 'quantity'"))
    ensures payload.quantity.None? ==> r.Err?
    ensures payload.quantity.Some? ==> r == CreateReservation(db, requester, payload, entropy, now)
  {
    var v :- RS.Validate(RS.WritableFields(payload), requester, db.ticketTypes);
    var fields :- PerformCreateAsWritten(v, requester, now);
    var code := R.GenerateReservationCode(entropy);
    if S.CodeInUse(db, code) then Err(ServerError("duplicate reference code"))
    else
      var rid := db.nextReservation;
      Ok(db.(reservations := db.reservations[rid := R.NewReservation(rid, fields, code, now)],
             nextReservation := rid + 1))
  }

  lemma CreatePreservesValid(db: S.Db, requester: Requester, payload: RS.ReservationPayload,
                             entropy: seq<byte>, now: int)
    requires S.Valid(db) && |entropy| == R.ReferenceEntropy
    requires CreateReservation(db, requester, payload, entropy, now).Ok?
    ensures S.Valid(CreateReservation(db, requester, payload, entropy, now).value)
  {
    var after := CreateReservation(db, requester, payload, entropy, now).value;
    var rid := db.nextReservation;
    L.PaidForNothingCompleted(db.payments, rid);
    assert S.ReservationsWellFormed(after);
  }

  /** The read-only fields of a request (status, amounts, code, expiry, holder) have no effect. */
  lemma CreateIgnoresReadOnlyFields(db: S.Db, requester: Requester, a: RS.ReservationPayload,
                                    b: RS.ReservationPayload, entropy: seq<byte>, now: int)
    requires S.WellFormed(db) && |entropy| == R.ReferenceEntropy
    requires a.ticketType == b.ticketType && a.quantity == b.quantity && a.guestEmail == b.guestEmail
    ensures CreateReservation(db, requester, a, entropy, now) == CreateReservation(db, requester, b, entropy, now)
  {
    RS.ReadOnlyFieldsIgnored(a, b);
  }

  /**
   Whether the reservation endpoints' lookup finds reservation `rid`: with a
   non-empty `reference_code` query parameter, only the reservation carrying
   that code; without one, nothing for an anonymous requester, every
   reservation for staff, and their own reservations for anyone else.
   */
  predicate ReservationVisible(db: S.Db, requester: Requester, lookupCode: Option<string>, rid: nat) {
    && rid in db.reservations
    && if RS.Given(lookupCode) then db.reservations[rid].referenceCode == lookupCode.value
       else requester.Authenticated? && (requester.user.isStaff || db.reservations[rid].user == Some(requester.user.id))
  }

  /** The `amount` form field: the submitted text and the decimal it denotes, if any. */
  datatype FormAmount = FormAmount(text: string, cents: Option<int>)

  /** `not amount` fails only for an absent or empty text; "0" is given. */
  predicate AmountGiven(amount: Option<FormAmount>) {
    amount.Some? && |amount.value.text| > 0
  }

  /**
   `upload_payment_proof`: after the reservation lookup, a missing file or
   amount is refused; otherwise a pending proof is created and the
   reservation is forced to `pending`, whatever its status was. An amount
   that is not a number fails when the row is written. `storedPath` is the
   name the storage gave the file under `payment_proofs/`.
   */
  function UploadPaymentProof(db: S.Db, requester: Requester, lookupCode: Option<string>, rid: nat,
                              file: Option<UploadedFile>, storedPath: string, amount: Option<FormAmount>, now: int): (r: Result<S.Db>)
    requires S.WellFormed(db)
    ensures !ReservationVisible(db, requester, lookupCode, rid) ==> r == Err(NotFound)
    ensures ReservationVisible(db, requester, lookupCode, rid) && !FileGiven(file) ==> r == Err(BadRequest("No file provided"))
    ensures ReservationVisible(db, requester, lookupCode, rid) && FileGiven(file) && !AmountGiven(amount) ==>
              r == Err(BadRequest("Payment amount is required"))
    ensures r.Ok? <==> (&& ReservationVisible(db, requester, lookupCode, rid) && FileGiven(file) && AmountGiven(amount)
                        && amount.value.cents.Some?)
    ensures r.Ok? ==>
              var after := r.value;
              var uploader := if requester.Authenticated? then Some(requester.user.id) else None;
              && after.proofs == db.proofs[db.nextProof := R.PaymentProof(db.nextProof, rid, uploader, storedPath,
                                                                          now, R.ProofStatus.Pending, amount.value.cents.value, "")]
              && db.nextProof !in db.proofs
              && after.reservations.Keys == db.reservations.Keys
              && after.reservations[rid].status == R.Status.Pending
              && after.reservations[rid] == R.Save(db.reservations[rid].(status := R.Status.Pending), now)
              && after.reservations[rid].amountPaid == db.reservations[rid].amountPaid
              && after.reservations[rid].(status := db.reservations[rid].status, expiresAt := db.reservations[rid].expiresAt)
                 == db.reservations[rid]
              && (forall x :: x in db.reservations && x != rid ==> after.reservations[x] == db.reservations[x])
              && after == db.(proofs := after.proofs, nextProof := db.nextProof + 1, reservations := after.reservations)
  {
    if !ReservationVisible(db, requester, lookupCode, rid) then Err(NotFound)
    else if !FileGiven(file) then Err(BadRequest("No file provided"))
    else if !AmountGiven(amount) then Err(BadRequest("Payment amount is required"))
    else if amount.value.cents.None? then Err(ServerError("invalid decimal amount"))
    else
      var uploader := if requester.Authenticated? then Some(requester.user.id) else None;
      var proof := R.NewPaymentProof(db.nextProof, rid, uploader, storedPath, amount.value.cents, now);
      var reservation := R.Save(db.reservations[rid].(status := R.Status.Pending), now);
      Ok(db.(proofs := db.proofs[db.nextProof := proof], nextProof := db.nextProof + 1,
             reservations := db.reservations[rid := reservation]))
  }

  lemma UploadPreservesValid(db: S.Db, requester: Requester, lookupCode: Option<string>, rid: nat,
                             file: Option<UploadedFile>, storedPath: string, amount: Option<FormAmount>, now: int)
    requires S.Valid(db)
    requires UploadPaymentProof(db, requester, lookupCode, rid, file, storedPath, amount, now).Ok?
    ensures S.Valid(UploadPaymentProof(db, requester, lookupCode, rid, file, storedPath, amount, now).value)
  {
    var uploader := if requester.Authenticated? then Some(requester.user.id) else None;
    var proof := R.NewPaymentProof(db.nextProof, rid, uploader, storedPath, amount.value.cents, now);
    S.ProofWriteKeepsValid(db, db.nextProof, proof, db.nextProof + 1);
    var added := db.(proofs := db.proofs[db.nextProof := proof], nextProof := db.nextProof + 1);
    S.ReservationEditKeepsValid(added, rid, R.Save(db.reservations[rid].(status := R.Status.Pending), now));
  }

  /** Without the reservation's reference code, an anonymous payer cannot reach it to upload a proof. */
  lemma AnonymousUploadNeedsCode(db: S.Db, rid: nat, file: Option<UploadedFile>, storedPath: string, amount: Option<FormAmount>, now: int)
    requires S.WellFormed(db)
    ensures UploadPaymentProof(db, Anonymous, None, rid, file, storedPath, amount, now) == Err(NotFound)
    ensures UploadPaymentProof(db, Anonymous, Some(""), rid, file, storedPath, amount, now) == Err(NotFound)
  {
  }

  /**
   Giving the reservation's own reference code makes it reachable to anyone,
   and a code that belongs to another reservation never does.
   */
  lemma ReferenceCodeOpensLookup(db: S.Db, requester: Requester, code: string, rid: nat)
    requires S.WellFormed(db) && rid in db.reservations && |code| > 0
    ensures ReservationVisible(db, requester, Some(code), rid) <==> db.reservations[rid].referenceCode == code
  {
  }

  /** The transaction reference of the payment an approval creates. */
  function ProofReference(proofId: nat): string {
    "PROOF-" + Text.DecimalString(proofId)
  }

  /** Distinct proofs give payments with distinct references. */
  lemma ProofReferenceInjective(a: nat, b: nat)
    requires ProofReference(a) == ProofReference(b)
    ensures a == b
  {
    var prefix := "PROOF-";
    assert Text.DecimalString(a) == ProofReference(a)[|prefix|..];
    assert Text.DecimalString(b) == ProofReference(b)[|prefix|..];
    Text.DecimalStringInjective(a, b);
  }

  /** Notifications the approval asks the mail service to send. */
  datatype Notice = PaymentConfirmation(reservation: nat) | ReservationConfirmation(reservation: nat)

  datatype Approval = Approval(db: S.Db, notices: seq<Notice>)

  /** The completed bank-transfer payment that approving a proof records. */
  function ApprovalPayment(proof: R.PaymentProof, now: int): P.PaymentFields {
    P.PaymentFields(proof.reservation, proof.amount, P.BankTransfer, Some(P.DefaultCurrency),
                    Some(P.Completed), Some(ProofReference(proof.id)), Some(now))
  }

  /**
   `approve`: staff only; the proof must still await review (staff look
   proofs up among the pending ones). A completed ZAR bank-transfer payment
   of the proof's amount is recorded and reconciled, the proof is marked
   approved, and a payment confirmation is sent, followed by a reservation
   confirmation when the reconciled status is confirmed or completed.
   */
  function ApproveProof(db: S.Db, requester: Requester, proofId: nat, now: int): (r: Result<Approval>)
    requires S.WellFormed(db)
    ensures !requester.IsStaff() ==> r == Err(PermissionDenied)
    ensures requester.IsStaff() && !S.PendingProof(db, proofId) ==> r == Err(NotFound)
    ensures r.Ok? <==> requester.IsStaff() && S.PendingProof(db, proofId)
    ensures r.Ok? ==>
              var proof := db.proofs[proofId];
              var rid := proof.reservation;
              var after := r.value.db;
              && rid in db.reservations
              && after.payments == db.payments + [P.Payment(db.nextPayment, rid, proof.amount, "ZAR", P.Completed,
                                                            P.BankTransfer, ProofReference(proofId), Some(now))]
              && after.proofs == db.proofs[proofId := proof.(status := R.ProofStatus.Approved)]
              && after.reservations.Keys == db.reservations.Keys
              && after.reservations[rid] == L.Reconcile(db.reservations[rid], after.payments,
                                                        db.ticketTypes[db.reservations[rid].ticketType].reservationFee, now)
              && (forall x :: x in db.reservations && x != rid ==> after.reservations[x] == db.reservations[x])
              && after == db.(payments := after.payments, proofs := after.proofs, reservations := after.reservations,
                              nextPayment := db.nextPayment + 1)
              && |r.value.notices| > 0 && r.value.notices[0] == PaymentConfirmation(rid)
              && (ReservationConfirmation(rid) in r.value.notices
                  <==> after.reservations[rid].status in {R.Confirmed, R.Completed})
  {
    if !requester.IsStaff() then Err(PermissionDenied)
    else if !S.PendingProof(db, proofId) then Err(NotFound)
    else
      var proof := db.proofs[proofId];
      var rid := proof.reservation;
      var paid := S.AppendPayment(db, ApprovalPayment(proof, now), now);
      var after := paid.(proofs := paid.proofs[proofId := proof.(status := R.ProofStatus.Approved)]);
      var confirmation := if after.reservations[rid].status in {R.Confirmed, R.Completed}
                          then [ReservationConfirmation(rid)] else [];
      Ok(Approval(after, [PaymentConfirmation(rid)] + confirmation))
  }

  lemma ApprovePreservesValid(db: S.Db, requester: Requester, proofId: nat, now: int)
    requires S.Valid(db)
    requires ApproveProof(db, requester, proofId, now).Ok?
    ensures S.Valid(ApproveProof(db, requester, proofId, now).value.db)
  {
    var proof := db.proofs[proofId];
    S.AppendPaymentPreservesValid(db, ApprovalPayment(proof, now), now);
    var paid := S.AppendPayment(db, ApprovalPayment(proof, now), now);
    S.ProofWriteKeepsValid(paid, proofId, proof.(status := R.ProofStatus.Approved), paid.nextProof);
  }

  /** On a consistent database, approval adds exactly the proof's amount to what the reservation has paid. */
  lemma ApproveAddsProofAmount(db: S.Db, requester: Requester, proofId: nat, now: int)
    requires S.Valid(db)
    requires ApproveProof(db, requester, proofId, now).Ok?
    ensures var rid := db.proofs[proofId].reservation;
            ApproveProof(db, requester, proofId, now).value.db.reservations[rid].amountPaid
              == db.reservations[rid].amountPaid + db.proofs[proofId].amount
  {
    var proof := db.proofs[proofId];
    var p := P.NewPayment(db.nextPayment, ApprovalPayment(proof, now));
    L.PaidForAppend(db.payments, p, proof.reservation);
  }

  /**
   On a consistent database, the status approval leaves follows from the new
   paid amount, the old one plus the proof's amount: completed once it covers
   the total, confirmed while it is positive but short of it.
   */
  lemma ApprovalStatus(db: S.Db, requester: Requester, proofId: nat, now: int)
    requires S.Valid(db)
    requires ApproveProof(db, requester, proofId, now).Ok?
    ensures var rid := db.proofs[proofId].reservation;
            var before := db.reservations[rid];
            var after := ApproveProof(db, requester, proofId, now).value.db.reservations[rid];
            var paid := before.amountPaid + db.proofs[proofId].amount;
            && after.amountPaid == paid
            && after.totalAmount == before.totalAmount
            && (paid >= before.totalAmount ==> after.status == R.Completed)
            && (0 < paid < before.totalAmount ==> after.status == R.Confirmed)
  {
    ApproveAddsProofAmount(db, requester, proofId, now);
  }

  /** An approved proof is no longer pending, so approving it again records nothing. */
  lemma ApproveTwiceRefused(db: S.Db, requester: Requester, proofId: nat, now: int, later: int)
    requires S.WellFormed(db)
    requires ApproveProof(db, requester, proofId, now).Ok?
    requires S.WellFormed(ApproveProof(db, requester, proofId, now).value.db)
    ensures ApproveProof(ApproveProof(db, requester, proofId, now).value.db, requester, proofId, later) == Err(NotFound)
  {
  }

  /**
   `reject`: staff only, on a proof still awaiting review. The proof is
   marked rejected with the given notes (empty when none); no payment is
   recorded; the reservation goes back to `reserved` only if it is pending.
   */
  function RejectProof(db: S.Db, requester: Requester, proofId: nat, notes: Option<string>, now: int): (r: Result<S.Db>)
    requires S.WellFormed(db)
    ensures !requester.IsStaff() ==> r == Err(PermissionDenied)
    ensures requester.IsStaff() && !S.PendingProof(db, proofId) ==> r == Err(NotFound)
    ensures r.Ok? <==> requester.IsStaff() && S.PendingProof(db, proofId)
    ensures r.Ok? ==>
              var proof := db.proofs[proofId];
              var rid := proof.reservation;
              var after := r.value;
              && rid in db.reservations
              && after.proofs == db.proofs[proofId := proof.(status := R.ProofStatus.Rejected, notes := notes.GetOr(""))]
              && after.payments == db.payments && after.refunds == db.refunds
              && after.reservations.Keys == db.reservations.Keys
              && (db.reservations[rid].status == R.Status.Pending ==> after.reservations[rid].status == R.Reserved)
              && (db.reservations[rid].status == R.Status.Pending ==>
                    after.reservations[rid] == R.Save(db.reservations[rid].(status := R.Reserved), now))
              && (db.reservations[rid].status != R.Status.Pending ==> after.reservations[rid] == db.reservations[rid])
              && after.reservations[rid].amountPaid == db.reservations[rid].amountPaid
              && (forall x :: x in db.reservations && x != rid ==> after.reservations[x] == db.reservations[x])
              && after == db.(proofs := after.proofs, reservations := after.reservations)
  {
    if !requester.IsStaff() then Err(PermissionDenied)
    else if !S.PendingProof(db, proofId) then Err(NotFound)
    else
      var proof := db.proofs[proofId];
      var rejected := db.(proofs := db.proofs[proofId := proof.(status := R.ProofStatus.Rejected, notes := notes.GetOr(""))]);
      var rid := proof.reservation;
      var reservation := rejected.reservations[rid];
      if reservation.status == R.Status.Pending then
        Ok(rejected.(reservations := rejected.reservations[rid := R.Save(reservation.(status := R.Reserved), now)]))
      else Ok(rejected)
  }

  lemma RejectPreservesValid(db: S.Db, requester: Requester, proofId: nat, notes: Option<string>, now: int)
    requires S.Valid(db)
    requires RejectProof(db, requester, proofId, notes, now).Ok?
    ensures S.Valid(RejectProof(db, requester, proofId, notes, now).value)
  {
    var proof := db.proofs[proofId];
    var rejectedProof := proof.(status := R.ProofStatus.Rejected, notes := notes.GetOr(""));
    S.ProofWriteKeepsValid(db, proofId, rejectedProof, db.nextProof);
    var rejected := db.(proofs := db.proofs[proofId := rejectedProof]);
    assert rejected == db.(proofs := db.proofs[proofId := rejectedProof], nextProof := db.nextProof);
    var reservation := rejected.reservations[proof.reservation];
    if reservation.status == R.Status.Pending {
      S.ReservationEditKeepsValid(rejected, proof.reservation, R.Save(reservation.(status := R.Reserved), now));
    }
  }
}

=== FILE: reservations.dfy ===
/**
 Reservations and payment proofs (reservations/models.py): the reservation
 record with its generated reference code, defaults, the expiry fallback on
 save and the outstanding balance; and the payment-proof record with its
 defaults. Ticket types (events/models.py) are read-only here.
 */
module Reservations {
  import opened Common
  import Text

  /** The reservation lifecycle states. */
  datatype Status = Reserved | Pending | Confirmed | Completed | Cancelled | Attended

  /** What the core reads of a ticket type: unit price, per-ticket deposit, tickets on offer. */
  datatype TicketType = TicketType(price: int, reservationFee: int, quantityAvailable: nat)

  datatype Reservation = Reservation(
    id: nat,
    user: Option<nat>,
    guestEmail: string,
    ticketType: nat,
    quantity: nat,
    status: Status,
    referenceCode: string,
    reservedAt: int,
    expiresAt: Option<int>,
    totalAmount: int,
    amountPaid: int)

  /** Number of random bytes behind a reference code (`token_hex(6)`). */
  const ReferenceEntropy: nat := 6

  /**
   `generate_reservation_code`: six random bytes (supplied by the caller, as
   the random source is outside the model) rendered as hex and upper-cased.
   The code is twelve upper-case hex digits and determines the bytes.
   */
  function GenerateReservationCode(entropy: seq<byte>): (code: string)
    requires |entropy| == ReferenceEntropy
    ensures |code| == 12
    ensures forall i :: 0 <= i < |code| ==> Text.IsUpperHexDigit(code[i])
    ensures Text.HexDecode(code) == entropy
  {
    Text.HexRoundTrip(entropy);
    Text.Upper(Text.TokenHex(entropy))
  }

  /** Different random bytes never produce the same reference code. */
  lemma ReferenceCodeInjective(a: seq<byte>, b: seq<byte>)
    requires |a| == ReferenceEntropy && |b| == ReferenceEntropy
    requires GenerateReservationCode(a) == GenerateReservationCode(b)
    ensures a == b
  {
  }

  /**
   The fields given when a reservation row is created; the ones with model
   defaults (quantity, status, amount paid) may be absent, and so may the
   expiry, which `Save` then fills.
   */
  datatype ReservationFields = ReservationFields(
    user: Option<nat>,
    guestEmail: string,
    ticketType: nat,
    quantity: Option<nat>,
    status: Option<Status>,
    totalAmount: int,
    amountPaid: Option<int>,
    expiresAt: Option<int>)

  /**
   A reservation row as constructed: the generated code, reserved at `now`,
   quantity 1, status reserved and nothing paid unless given.
   */
  function NewReservation(id: nat, fields: ReservationFields, code: string, now: int): (r: Reservation)
    ensures r.id == id && r.referenceCode == code && r.reservedAt == now
    ensures fields.quantity.None? ==> r.quantity == 1
    ensures fields.status.None? ==> r.status == Reserved
    ensures fields.amountPaid.None? ==> r.amountPaid == 0
    ensures fields.quantity.Some? ==> r.quantity == fields.quantity.value
    ensures r.totalAmount == fields.totalAmount && r.expiresAt == fields.expiresAt
  {
    Reservation(id, fields.user, fields.guestEmail, fields.ticketType, fields.quantity.GetOr(1),
                fields.status.GetOr(Reserved), code, now, fields.expiresAt, fields.totalAmount,
                fields.amountPaid.GetOr(0))
  }

  /**
   `Reservation.save`: an unset expiry becomes `now` plus the 24-hour hold;
   a set expiry is kept. Nothing else changes.
   */
  function Save(r: Reservation, now: int): (saved: Reservation)
    ensures r.expiresAt.None? ==> saved.expiresAt == Some(now + ReservationHold)
    ensures r.expiresAt.Some? ==> saved == r
    ensures saved.(expiresAt := r.expiresAt) == r
  {
    if r.expiresAt.None? then r.(expiresAt := Some(now + ReservationHold)) else r
  }

  /** Saving twice is saving once, whenever the second save happens. */
  lemma SaveIdempotent(r: Reservation, now: int, later: int)
    ensures Save(Save(r, now), later) == Save(r, now)
  {
  }

  /** What is still owed; derived on demand, never stored. */
  function OutstandingBalance(r: Reservation): (balance: int)
    ensures balance + r.amountPaid == r.totalAmount
  {
    r.totalAmount - r.amountPaid
  }

  /** Review state of an uploaded proof of payment. */
  datatype ProofStatus = Pending | Approved | Rejected

  datatype PaymentProof = PaymentProof(
    id: nat,
    reservation: nat,
    uploadedBy: Option<nat>,
    file: string,
    uploadedAt: int,
    status: ProofStatus,
    amount: int,
    notes: string)

  /** A proof row as constructed: awaiting review, declared amount 0 unless given, no notes. */
  function NewPaymentProof(id: nat, reservation: nat, uploadedBy: Option<nat>, file: string,
                           amount: Option<int>, now: int): (p: PaymentProof)
    ensures p.status == ProofStatus.Pending && p.notes == ""
    ensures amount.None? ==> p.amount == 0
    ensures amount.Some? ==> p.amount == amount.value
    ensures p.id == id && p.reservation == reservation && p.uploadedBy == uploadedBy
    ensures p.file == file && p.uploadedAt == now
  {
    PaymentProof(id, reservation, uploadedBy, file, now, ProofStatus.Pending, amount.GetOr(0), "")
  }
}

=== FILE: scenarios.dfy ===
/**
 Worked runs of the proof workflow on one reservation: two tickets at 100.00
 with no reservation fee, paid in two instalments, and a rejected proof.
 */
module Scenarios {
  import opened Common
  import opened Users
  import P = Payments
  import R = Reservations
  import S = Store
  import RV = ReservationViews

  /** A staff account that reviews proofs. */
  const Reviewer := User(9, "staff@example.com", "staff@example.com", "Staff", Finance, true, true, false, true)

  const Receipt := UploadedFile("receipt.pdf", "application/pdf", 2048)
  const StoredReceipt := "payment_proofs/receipt.pdf"

  /** The reservation's reference code, which a guest payer gives to reach it. */
  const Code := "0A1B2C3D4E5F"

  /** One reservation of two tickets at 100.00 (20000 cents in total), nothing paid. */
  function Start(): (db: S.Db)
    ensures S.Valid(db)
    ensures 0 in db.reservations && db.reservations[0].totalAmount == 20000
    ensures db.reservations[0].amountPaid == 0 && db.reservations[0].status == R.Reserved
  {
    var reservation := R.Reservation(0, None, "guest@example.com", 0, 2, R.Reserved, Code,
                                     0, Some(ReservationHold), 20000, 0);
    S.Db(map[0 := R.TicketType(10000, 0, 10)], map[0 := reservation], [], map[], map[], 1, 0, 0, 0)
  }

  /**
   A proof of 50.00 makes the reservation pending; approving it records the
   payment, and the reservation is confirmed with 50.00 paid.
   */
  lemma InstalmentConfirms(now: int)
    ensures var up := RV.UploadPaymentProof(Start(), Anonymous, Some(Code), 0, Some(Receipt), StoredReceipt,
                                            Some(RV.FormAmount("50.00", Some(5000))), now);
            && up.Ok? && up.value.reservations[0].status == R.Status.Pending
            && var ap := RV.ApproveProof(up.value, Authenticated(Reviewer), 0, now);
            && ap.Ok?
            && ap.value.db.reservations[0].amountPaid == 5000
            && ap.value.db.reservations[0].status == R.Confirmed
            && RV.ReservationConfirmation(0) in ap.value.notices
  {
    var db := Start();
    var up := RV.UploadPaymentProof(db, Anonymous, Some(Code), 0, Some(Receipt), StoredReceipt, Some(RV.FormAmount("50.00", Some(5000))), now);
    RV.UploadPreservesValid(db, Anonymous, Some(Code), 0, Some(Receipt), StoredReceipt, Some(RV.FormAmount("50.00", Some(5000))), now);
    RV.ApprovalStatus(up.value, Authenticated(Reviewer), 0, now);
  }

  /** The database after the first instalment of 50.00 has been approved. */
  function AfterFirstInstalment(now: int): (db: S.Db)
    ensures S.Valid(db)
    ensures 0 in db.reservations && db.reservations[0].totalAmount == 20000
    ensures db.reservations[0].amountPaid == 5000 && db.reservations[0].status == R.Confirmed
    ensures db.reservations[0].referenceCode == Code
  {
    var amount := Some(RV.FormAmount("50.00", Some(5000)));
    InstalmentConfirms(now);
    var up := RV.UploadPaymentProof(Start(), Anonymous, Some(Code), 0, Some(Receipt), StoredReceipt, amount, now);
    RV.UploadPreservesValid(Start(), Anonymous, Some(Code), 0, Some(Receipt), StoredReceipt, amount, now);
    RV.ApprovePreservesValid(up.value, Authenticated(Reviewer), 0, now);
    RV.ApproveProof(up.value, Authenticated(Reviewer), 0, now).value.db
  }

  /** The database after a second proof, of the remaining 150.00, has been uploaded. */
  function SecondProofUploaded(now: int): (db: S.Db)
    ensures var up := RV.UploadPaymentProof(AfterFirstInstalment(now), Anonymous, Some(Code), 0, Some(Receipt), StoredReceipt,
                                            Some(RV.FormAmount("150.00", Some(15000))), now);
            up.Ok? && db == up.value
    ensures S.Valid(db)
    ensures var proofId := AfterFirstInstalment(now).nextProof;
            S.PendingProof(db, proofId) && db.proofs[proofId].reservation == 0 && db.proofs[proofId].amount == 15000
    ensures 0 in db.reservations && db.reservations[0].totalAmount == 20000 && db.reservations[0].amountPaid == 5000
  {
    var first := AfterFirstInstalment(now);
    var rest := Some(RV.FormAmount("150.00", Some(15000)));
    assert RV.ReservationVisible(first, Anonymous, Some(Code), 0);
    RV.UploadPreservesValid(first, Anonymous, Some(Code), 0, Some(Receipt), StoredReceipt, rest, now);
    RV.UploadPaymentProof(first, Anonymous, Some(Code), 0, Some(Receipt), StoredReceipt, rest, now).value
  }

  /**
   A second proof of the remaining 150.00 (the upload `SecondProofUploaded`
   performs), once approved, completes the reservation.
   */
  lemma SecondInstalmentCompletes(now: int)
    ensures var db := SecondProofUploaded(now);
            var ap := RV.ApproveProof(db, Authenticated(Reviewer), AfterFirstInstalment(now).nextProof, now);
            && ap.Ok?
            && ap.value.db.reservations[0].amountPaid == 20000
            && ap.value.db.reservations[0].status == R.Completed
            && R.OutstandingBalance(ap.value.db.reservations[0]) == 0
  {
    var db := SecondProofUploaded(now);
    var proofId := AfterFirstInstalment(now).nextProof;
    RV.ApprovalStatus(db, Authenticated(Reviewer), proofId, now);
    var after := RV.ApproveProof(db, Authenticated(Reviewer), proofId, now).value.db.reservations[0];
    assert after.amountPaid == 20000 && after.totalAmount == 20000;
  }

  /** Rejecting the only proof puts the pending reservation back to reserved; the ledger stays empty. */
  lemma RejectedProofReverts(now: int)
    ensures var up := RV.UploadPaymentProof(Start(), Anonymous, Some(Code), 0, Some(Receipt), StoredReceipt,
                                            Some(RV.FormAmount("50.00", Some(5000))), now);
            && up.Ok?
            && var rj := RV.RejectProof(up.value, Authenticated(Reviewer), 0, None, now);
            && rj.Ok?
            && rj.value.reservations[0].status == R.Reserved
            && rj.value.reservations[0].amountPaid == 0
            && rj.value.payments == []
            && rj.value.proofs[0].status == R.ProofStatus.Rejected
  {
  }
}

=== FILE: serializers.dfy ===
/**
 Input handling for reservations and payment proofs
 (reservations/serializers.py): which request fields a client may set, the
 guest-email rule, the capacity check, and how a proof row is built from a
 request.
 */
module ReservationSerializers {
  import opened Common
  import opened Users
  import R = Reservations

  /**
   Everything a client may send when creating a reservation, including the
   read-only fields, which the serializer accepts on the wire and discards.
   */
  datatype ReservationPayload = ReservationPayload(
    ticketType: Option<nat>,
    quantity: Option<nat>,
    guestEmail: Option<string>,
    status: Option<R.Status>,
    totalAmount: Option<int>,
    amountPaid: Option<int>,
    referenceCode: Option<string>,
    reservedAt: Option<int>,
    expiresAt: Option<int>,
    user: Option<nat>)

  /** The part of a reservation request a client can actually set. */
  datatype ReservationInput = ReservationInput(ticketType: Option<nat>, quantity: Option<nat>, guestEmail: Option<string>)

  /** Drops the read-only fields of a request. */
  function WritableFields(payload: ReservationPayload): (input: ReservationInput)
    ensures input.ticketType == payload.ticketType
    ensures input.quantity == payload.quantity && input.guestEmail == payload.guestEmail
  {
    ReservationInput(payload.ticketType, payload.quantity, payload.guestEmail)
  }

  /** Two requests that differ only in read-only fields are the same input. */
  lemma ReadOnlyFieldsIgnored(a: ReservationPayload, b: ReservationPayload)
    requires a.ticketType == b.ticketType && a.quantity == b.quantity && a.guestEmail == b.guestEmail
    ensures WritableFields(a) == WritableFields(b)
  {
  }

  /** A request that passed validation; `quantity` stays absent when the client left it out. */
  datatype ValidatedReservation = ValidatedReservation(
    ticketTypeId: nat,
    ticketType: R.TicketType,
    quantity: Option<nat>,
    guestEmail: string)

  /** Whether an optional text field is present and non-empty (Python truthiness). */
  predicate Given(field: Option<string>) {
    field.Some? && |field.value| > 0
  }

  /**
   `ReservationSerializer.validate`, after the field-level lookup of the
   ticket type: an authenticated requester's own email replaces any guest
   email; a guest must supply one; the quantity (1 when absent) may not
   exceed the tickets available.
   */
  function Validate(input: ReservationInput, requester: Requester, ticketTypes: map<nat, R.TicketType>)
    : (r: Result<ValidatedReservation>)
    ensures input.ticketType.None? || input.ticketType.value !in ticketTypes ==> r == Err(ValidationError("ticket_type"))
    ensures r.Ok? <==> && input.ticketType.Some? && input.ticketType.value in ticketTypes
                       && (requester.Authenticated? || Given(input.guestEmail))
                       && input.quantity.GetOr(1) <= ticketTypes[input.ticketType.value].quantityAvailable
    ensures input.ticketType.Some? && input.ticketType.value in ticketTypes && requester.Anonymous? && !Given(input.guestEmail)
            ==> r == Err(ValidationError("guest_email"))
    ensures r.Ok? && requester.Authenticated? ==> r.value.guestEmail == requester.user.email
    ensures r.Ok? && requester.Anonymous? ==> Some(r.value.guestEmail) == input.guestEmail
    ensures r.Ok? ==> && r.value.quantity == input.quantity
                      && r.value.ticketTypeId == input.ticketType.value
                      && r.value.ticketType == ticketTypes[input.ticketType.value]
  {
    if input.ticketType.None? || input.ticketType.value !in ticketTypes then Err(ValidationError("ticket_type"))
    else
      var email :- if requester.Authenticated? then Ok(requester.user.email)
                   else if Given(input.guestEmail) then Ok(input.guestEmail.value)
                   else Err(ValidationError("guest_email"));
      var ticketType := ticketTypes[input.ticketType.value];
      if input.quantity.GetOr(1) > ticketType.quantityAvailable then Err(ValidationError("non_field_errors"))
      else Ok(ValidatedReservation(input.ticketType.value, ticketType, input.quantity, email))
  }

  /** Asking for exactly the tickets available passes; one more fails. */
  lemma CapacityBoundary(input: ReservationInput, requester: Requester, ticketTypes: map<nat, R.TicketType>)
    requires input.ticketType.Some? && input.ticketType.value in ticketTypes
    requires requester.Authenticated?
    ensures var available := ticketTypes[input.ticketType.value].quantityAvailable;
            && Validate(input.(quantity := Some(available)), requester, ticketTypes).Ok?
            && Validate(input.(quantity := Some(available + 1)), requester, ticketTypes) == Err(ValidationError("non_field_errors"))
  {
  }

  /**
   Everything a client may send when creating a payment proof; the uploader,
   upload time and verification status are read-only.
   */
  datatype ProofPayload = ProofPayload(
    reservation: nat,
    file: string,
    amount: Option<int>,
    notes: Option<string>,
    uploadedBy: Option<nat>,
    uploadedAt: Option<int>,
    status: Option<R.ProofStatus>)

  /**
   `PaymentProofSerializer.create`: the proof starts pending whatever the
   client sent, and records the uploader only for an authenticated requester.
   */
  function CreateProof(payload: ProofPayload, requester: Requester, id: nat, now: int): (p: R.PaymentProof)
    ensures p.status == R.ProofStatus.Pending
    ensures requester.Authenticated? ==> p.uploadedBy == Some(requester.user.id)
    ensures requester.Anonymous? ==> p.uploadedBy.None?
    ensures p.amount == payload.amount.GetOr(0) && p.notes == payload.notes.GetOr("")
    ensures p.reservation == payload.reservation && p.file == payload.file && p.uploadedAt == now
  {
    var uploader := if requester.Authenticated? then Some(requester.user.id) else None;
    R.NewPaymentProof(id, payload.reservation, uploader, payload.file, payload.amount, now)
      .(notes := payload.notes.GetOr(""))
  }

  /** Whatever uploader, upload time or status the client claims, the created proof is the same. */
  lemma CreateProofIgnoresReadOnlyFields(a: ProofPayload, b: ProofPayload, requester: Requester, id: nat, now: int)
    requires a.reservation == b.reservation && a.file == b.file && a.amount == b.amount && a.notes == b.notes
    ensures CreateProof(a, requester, id, now) == CreateProof(b, requester, id, now)
  {
  }
}

=== FILE: store.dfy ===
/**
 The persisted state of the core and its ledger unit of work: every change
 to the ledger (create, update, delete of a payment) is followed by
 reconciliation of the affected reservation, as the post-save and
 post-delete handlers of payments/signals.py do.

 The central invariant is `LedgerConsistent`: every reservation's
 `amountPaid` equals the sum of its completed payments.
 */
module Store {
  import opened Common
  import P = Payments
  import R = Reservations
  import L = Ledger

  datatype Db = Db(
    ticketTypes: map<nat, R.TicketType>,
    reservations: map<nat, R.Reservation>,
    payments: seq<P.Payment>,
    proofs: map<nat, R.PaymentProof>,
    refunds: map<nat, P.Refund>,
    nextReservation: nat,
    nextPayment: nat,
    nextProof: nat,
    nextRefund: nat)

  /*
   Each table's well-formedness is stated over the fields it reads, so that a
   write to another table leaves it evidently unchanged.
   */

  /** Row ids match their keys, ids are below the next id, and foreign keys resolve. */
  predicate ReservationsWellFormed(db: Db) {
    ReservationRows(db.reservations, db.ticketTypes, db.nextReservation)
  }

  predicate ReservationRows(rows: map<nat, R.Reservation>, ticketTypes: map<nat, R.TicketType>, next: nat) {
    && (forall rid :: rid in rows ==>
          && rows[rid].id == rid
          && rid < next
          && rows[rid].ticketType in ticketTypes)
    && (forall a, b :: a in rows && b in rows && a != b ==> rows[a].referenceCode != rows[b].referenceCode)
  }

  predicate PaymentsWellFormed(db: Db) {
    PaymentRows(db.payments, db.reservations.Keys, db.nextPayment)
  }

  predicate PaymentRows(ledger: seq<P.Payment>, reservationIds: set<nat>, next: nat) {
    && (forall k :: 0 <= k < |ledger| ==> ledger[k].reservation in reservationIds && ledger[k].id < next)
    && (forall k, m :: 0 <= k < m < |ledger| ==> ledger[k].id != ledger[m].id)
  }

  predicate ProofsWellFormed(db: Db) {
    ProofRows(db.proofs, db.reservations.Keys, db.nextProof)
  }

  predicate ProofRows(rows: map<nat, R.PaymentProof>, reservationIds: set<nat>, next: nat) {
    forall id :: id in rows ==> rows[id].id == id && id < next && rows[id].reservation in reservationIds
  }

  predicate RefundsWellFormed(db: Db) {
    RefundRows(db.refunds, db.nextRefund)
  }

  predicate RefundRows(rows: map<nat, P.Refund>, next: nat) {
    forall id :: id in rows ==> rows[id].id == id && id < next
  }

  /** Every refund request belongs to a payment of the ledger (the foreign key, deleted in cascade). */
  predicate RefundsLinked(db: Db) {
    RefundLinks(db.refunds, db.payments)
  }

  predicate RefundLinks(rows: map<nat, P.Refund>, ledger: seq<P.Payment>) {
    forall id :: id in rows ==> HasPayment(ledger, rows[id].payment)
  }

  /** Keys, unique codes and the foreign keys of reservations, payments and proofs. */
  predicate WellFormed(db: Db) {
    ReservationsWellFormed(db) && PaymentsWellFormed(db) && ProofsWellFormed(db) && RefundsWellFormed(db)
  }

  /** Every reservation's paid amount agrees with its completed payments, except those in `pending`. */
  predicate ConsistentExcept(db: Db, pending: set<nat>) {
    forall rid :: rid in db.reservations && rid !in pending ==>
      db.reservations[rid].amountPaid == L.PaidFor(db.payments, rid)
  }

  predicate LedgerConsistent(db: Db) {
    ConsistentExcept(db, {})
  }

  /**
   The invariant every endpoint keeps: the database is well formed, every
   refund's payment exists, and the ledger is consistent.
   */
  predicate Valid(db: Db) {
    WellFormed(db) && RefundsLinked(db) && LedgerConsistent(db)
  }

  /** Whether some reservation already carries the reference code (it is a unique column). */
  predicate CodeInUse(db: Db, code: string) {
    exists rid :: rid in db.reservations && db.reservations[rid].referenceCode == code
  }

  /** Whether the proof exists and still awaits review. */
  predicate PendingProof(db: Db, proofId: nat) {
    proofId in db.proofs && db.proofs[proofId].status == R.ProofStatus.Pending
  }

  /** Position of the payment with id `pid` in the ledger, if there is one. */
  function IndexOf(ledger: seq<P.Payment>, pid: nat): (i: Option<nat>)
    ensures i.Some? ==> i.value < |ledger| && ledger[i.value].id == pid
    ensures i.None? ==> forall k :: 0 <= k < |ledger| ==> ledger[k].id != pid
  {
    if |ledger| == 0 then None
    else if ledger[0].id == pid then Some(0)
    else
      match IndexOf(ledger[1..], pid)
      case None => None
      case Some(j) => Some(j + 1)
  }

  /** Whether the ledger holds a payment with id `pid`. */
  predicate HasPayment(ledger: seq<P.Payment>, pid: nat) {
    IndexOf(ledger, pid).Some?
  }

  /** Appending an entry keeps every payment the ledger had. */
  lemma AppendKeepsPayment(ledger: seq<P.Payment>, p: P.Payment, pid: nat)
    requires HasPayment(ledger, pid)
    ensures HasPayment(ledger + [p], pid)
  {
    var k := IndexOf(ledger, pid).value;
    assert (ledger + [p])[k] == ledger[k];
  }

  /** Replacing an entry by one with the same id keeps every payment the ledger had. */
  lemma ReplaceKeepsPayment(ledger: seq<P.Payment>, i: nat, q: P.Payment, pid: nat)
    requires i < |ledger| && q.id == ledger[i].id && HasPayment(ledger, pid)
    ensures HasPayment(ledger[i := q], pid)
  {
    var k := IndexOf(ledger, pid).value;
    assert ledger[i := q][k].id == pid;
  }

  /** Replacing a ledger entry by one with the same id and a known reservation keeps the ledger well formed. */
  lemma ReplaceKeepsPaymentRows(ledger: seq<P.Payment>, i: nat, q: P.Payment, reservationIds: set<nat>, next: nat)
    requires PaymentRows(ledger, reservationIds, next)
    requires i < |ledger| && q.id == ledger[i].id && q.reservation in reservationIds
    ensures PaymentRows(ledger[i := q], reservationIds, next)
  {
  }

  /** Appending an entry with a fresh id and a known reservation keeps the ledger well formed under the next counter. */
  lemma AppendKeepsPaymentRows(ledger: seq<P.Payment>, p: P.Payment, reservationIds: set<nat>, next: nat)
    requires PaymentRows(ledger, reservationIds, next)
    requires p.id == next && p.reservation in reservationIds
    ensures PaymentRows(ledger + [p], reservationIds, next + 1)
  {
  }

  /** Removing an entry keeps every payment with another id. */
  lemma RemoveKeepsOtherPayment(ledger: seq<P.Payment>, i: nat, pid: nat)
    requires i < |ledger| && pid != ledger[i].id && HasPayment(ledger, pid)
    ensures HasPayment(L.RemoveAt(ledger, i), pid)
  {
    var k := IndexOf(ledger, pid).value;
    if k < i {
      assert L.RemoveAt(ledger, i)[k] == ledger[k];
    } else {
      assert L.RemoveAt(ledger, i)[k - 1] == ledger[k];
    }
  }

  /** The per-ticket reservation fee of the reservation's ticket type. */
  function FeeOf(db: Db, rid: nat): int
    requires ReservationsWellFormed(db) && rid in db.reservations
  {
    db.ticketTypes[db.reservations[rid].ticketType].reservationFee
  }

  /**
   The reconciliation handler applied to one reservation of the database:
   that reservation gets the paid amount, status and expiry `Ledger.Reconcile`
   derives from the ledger; every other row is left as it was.
   */
  function ReconcileReservation(db: Db, rid: nat, now: int): (db': Db)
    requires ReservationsWellFormed(db) && rid in db.reservations
    ensures db'.reservations.Keys == db.reservations.Keys
    ensures db'.reservations[rid] == L.Reconcile(db.reservations[rid], db.payments, FeeOf(db, rid), now)
    ensures db'.reservations[rid].amountPaid == L.PaidFor(db.payments, rid)
    ensures forall x :: x in db.reservations && x != rid ==> db'.reservations[x] == db.reservations[x]
    ensures db'.(reservations := db.reservations) == db
  {
    var r := db.reservations[rid];
    db.(reservations := db.reservations[rid := L.Reconcile(r, db.payments, db.ticketTypes[r.ticketType].reservationFee, now)])
  }

  /** Reconciling one reservation keeps the database well formed and makes that reservation consistent. */
  lemma ReconcileRestores(db: Db, rid: nat, pending: set<nat>, now: int)
    requires WellFormed(db) && rid in db.reservations && ConsistentExcept(db, pending)
    ensures WellFormed(ReconcileReservation(db, rid, now))
    ensures ConsistentExcept(ReconcileReservation(db, rid, now), pending - {rid})
    ensures RefundsLinked(db) ==> RefundsLinked(ReconcileReservation(db, rid, now))
  {
    var db' := ReconcileReservation(db, rid, now);
    forall a, b | a in db'.reservations && b in db'.reservations && a != b
      ensures db'.reservations[a].referenceCode != db'.reservations[b].referenceCode
    {
      assert db'.reservations[a].referenceCode == db.reservations[a].referenceCode;
      assert db'.reservations[b].referenceCode == db.reservations[b].referenceCode;
    }
  }

  /**
   Rewriting a reservation's status or expiry, keeping its id, ticket type,
   code and paid amount, keeps the database valid.
   */
  lemma ReservationEditKeepsValid(db: Db, rid: nat, r: R.Reservation)
    requires Valid(db) && rid in db.reservations
    requires r.id == rid && r.ticketType == db.reservations[rid].ticketType
    requires r.referenceCode == db.reservations[rid].referenceCode && r.amountPaid == db.reservations[rid].amountPaid
    ensures Valid(db.(reservations := db.reservations[rid := r]))
  {
    var db' := db.(reservations := db.reservations[rid := r]);
    forall a, b | a in db'.reservations && b in db'.reservations && a != b
      ensures db'.reservations[a].referenceCode != db'.reservations[b].referenceCode
    {
      assert db'.reservations[a].referenceCode == db.reservations[a].referenceCode;
      assert db'.reservations[b].referenceCode == db.reservations[b].referenceCode;
    }
  }

  /** Writing a proof row that points at an existing reservation keeps the database valid. */
  lemma ProofWriteKeepsValid(db: Db, id: nat, proof: R.PaymentProof, next: nat)
    requires Valid(db) && proof.id == id && proof.reservation in db.reservations
    requires id < next && db.nextProof <= next
    ensures Valid(db.(proofs := db.proofs[id := proof], nextProof := next))
  {
  }

  /** Rewriting a refund row, keeping its id and its payment, keeps a valid database valid. */
  lemma RefundWriteKeepsValid(db: Db, id: nat, rf: P.Refund)
    requires id in db.refunds && rf.id == db.refunds[id].id && rf.payment == db.refunds[id].payment
    ensures Valid(db) ==> Valid(db.(refunds := db.refunds[id := rf]))
  {
    var db' := db.(refunds := db.refunds[id := rf]);
    if Valid(db) {
      forall x | x in db'.refunds
        ensures HasPayment(db'.payments, db'.refunds[x].payment)
      {
        assert db'.refunds[x].payment == db.refunds[x].payment;
      }
    }
  }

  /**
   The unit of work for a new ledger entry: the payment is appended with the
   next id, then its reservation is reconciled. Nothing else changes.
   */
  function AppendPayment(db: Db, fields: P.PaymentFields, now: int): (db': Db)
    requires WellFormed(db) && fields.reservation in db.reservations
    ensures db'.payments == db.payments + [P.NewPayment(db.nextPayment, fields)]
    ensures db'.nextPayment == db.nextPayment + 1
    ensures db'.reservations.Keys == db.reservations.Keys
    ensures db'.reservations[fields.reservation].amountPaid == L.PaidFor(db'.payments, fields.reservation)
    ensures db'.reservations[fields.reservation]
            == L.Reconcile(db.reservations[fields.reservation], db'.payments, FeeOf(db, fields.reservation), now)
    ensures forall x :: x in db.reservations && x != fields.reservation ==> db'.reservations[x] == db.reservations[x]
    ensures db'.proofs == db.proofs && db'.refunds == db.refunds && db'.ticketTypes == db.ticketTypes
    ensures db'.nextReservation == db.nextReservation && db'.nextProof == db.nextProof
  {
    var p := P.NewPayment(db.nextPayment, fields);
    var added := db.(payments := db.payments + [p], nextPayment := db.nextPayment + 1);
    ReconcileReservation(added, fields.reservation, now)
  }

  lemma AppendPaymentPreservesValid(db: Db, fields: P.PaymentFields, now: int)
    requires Valid(db) && fields.reservation in db.reservations
    ensures Valid(AppendPayment(db, fields, now))
  {
    var rid := fields.reservation;
    var p := P.NewPayment(db.nextPayment, fields);
    var added := db.(payments := db.payments + [p], nextPayment := db.nextPayment + 1);
    assert ConsistentExcept(added, {rid}) by {
      forall x | x in added.reservations && x != rid
        ensures added.reservations[x].amountPaid == L.PaidFor(added.payments, x)
      {
        L.PaidForAppend(db.payments, p, x);
      }
    }
    assert RefundsLinked(added) by {
      forall id | id in added.refunds
        ensures HasPayment(added.payments, added.refunds[id].payment)
      {
        AppendKeepsPayment(db.payments, p, db.refunds[id].payment);
      }
    }
    AppendKeepsPaymentRows(db.payments, p, db.reservations.Keys, db.nextPayment);
    assert WellFormed(added);
    ReconcileRestores(added, rid, {rid}, now);
  }

  /**
   A ledger entry written through the payment create route, which any
   signed-in user may call with any status, amount and reservation. The
   serializer refuses a reservation that does not exist (a 400 on
   `reservation`) and ignores a client's `paid_at`, which is read-only;
   otherwise the unit of work above runs.
   */
  function RecordPayment(db: Db, fields: P.PaymentFields, now: int): (r: Result<Db>)
    requires WellFormed(db)
    ensures r.Ok? <==> fields.reservation in db.reservations
    ensures r.Err? ==> r.error == ValidationError("reservation")
    ensures r.Ok? ==> var rid := fields.reservation;
                      var p := P.NewPayment(db.nextPayment, fields.(paidAt := None));
                      && r.value.payments == db.payments + [p]
                      && p.paidAt == None
                      && r.value.reservations.Keys == db.reservations.Keys
                      && r.value.reservations[rid].amountPaid == L.PaidFor(db.payments, rid) + L.Contribution(p, rid)
                      && r.value.reservations[rid] == L.Reconcile(db.reservations[rid], r.value.payments, FeeOf(db, rid), now)
                      && (forall x :: x in db.reservations && x != rid ==> r.value.reservations[x] == db.reservations[x])
                      && r.value == db.(payments := r.value.payments, reservations := r.value.reservations,
                                        nextPayment := db.nextPayment + 1)
  {
    if fields.reservation !in db.reservations then Err(ValidationError("reservation"))
    else
      var accepted := fields.(paidAt := None);
      L.PaidForAppend(db.payments, P.NewPayment(db.nextPayment, accepted), fields.reservation);
      Ok(AppendPayment(db, accepted, now))
  }

  /**
   What the open create route allows: on a consistent database, one completed
   payment of the outstanding balance, written by any signed-in user, makes
   the reservation completed with no proof reviewed.
   */
  lemma OpenPaymentCompletes(db: Db, rid: nat, via: P.PaymentMethod, now: int)
    requires Valid(db) && rid in db.reservations
    ensures var balance := R.OutstandingBalance(db.reservations[rid]);
            var r := RecordPayment(db, P.PaymentFields(rid, balance, via, None, Some(P.Completed), None, None), now);
            && r.Ok?
            && r.value.reservations[rid].status == R.Completed
            && r.value.proofs == db.proofs
  {
    var balance := R.OutstandingBalance(db.reservations[rid]);
    var fields := P.PaymentFields(rid, balance, via, None, Some(P.Completed), None, None);
    var r := RecordPayment(db, fields, now);
    assert r.value.reservations[rid].amountPaid == db.reservations[rid].amountPaid + balance;
  }

  /**
   A payment update as the post-save handler treats it: the entry is
   replaced, and only the reservation the payment now belongs to is
   reconciled. When the update moves the payment to another reservation, the
   previous reservation keeps a stale paid amount (see
   `UpdateLeavesPreviousReservationStale`).
   */
  function UpdatePaymentAsWritten(db: Db, pid: nat, changed: P.Payment, now: int): (r: Result<Db>)
    requires WellFormed(db)
    ensures IndexOf(db.payments, pid).None? ==> r == Err(NotFound)
    ensures IndexOf(db.payments, pid).Some? && changed.reservation !in db.reservations ==>
              r == Err(ValidationError("reservation"))
    ensures r.Ok? <==> IndexOf(db.payments, pid).Some? && changed.reservation in db.reservations
    ensures r.Ok? ==> var i := IndexOf(db.payments, pid).value;
                      var rid := changed.reservation;
                      && r.value.payments == db.payments[i := changed.(id := pid)]
                      && r.value.reservations.Keys == db.reservations.Keys
                      && r.value.reservations[rid] == L.Reconcile(db.reservations[rid], r.value.payments, FeeOf(db, rid), now)
                      && (forall x :: x in db.reservations && x != rid ==> r.value.reservations[x] == db.reservations[x])
                      && r.value.(reservations := db.reservations, payments := db.payments) == db
  {
    match IndexOf(db.payments, pid)
    case None => Err(NotFound)
    case Some(i) =>
      if changed.reservation !in db.reservations then Err(ValidationError("reservation"))
      else
        var updated := db.(payments := db.payments[i := changed.(id := pid)]);
        Ok(ReconcileReservation(updated, changed.reservation, now))
  }

  /** A concrete run of the as-written update that leaves the ledger invariant broken. */
  lemma UpdateLeavesPreviousReservationStale()
    ensures var tt := map[0 := R.TicketType(100, 0, 10)];
            var a := R.Reservation(0, None, "a@x", 0, 1, R.Completed, "A", 0, Some(1), 100, 100);
            var b := R.Reservation(1, None, "b@x", 0, 1, R.Reserved, "B", 0, Some(1), 100, 0);
            var pay := P.Payment(0, 0, 100, "ZAR", P.Completed, P.BankTransfer, "", Some(0));
            var db := Db(tt, map[0 := a, 1 := b], [pay], map[], map[], 2, 1, 0, 0);
            && Valid(db)
            && UpdatePaymentAsWritten(db, 0, pay.(reservation := 1), 5).Ok?
            && !LedgerConsistent(UpdatePaymentAsWritten(db, 0, pay.(reservation := 1), 5).value)
  {
    var tt := map[0 := R.TicketType(100, 0, 10)];
    var a := R.Reservation(0, None, "a@x", 0, 1, R.Completed, "A", 0, Some(1), 100, 100);
    var b := R.Reservation(1, None, "b@x", 0, 1, R.Reserved, "B", 0, Some(1), 100, 0);
    var pay := P.Payment(0, 0, 100, "ZAR", P.Completed, P.BankTransfer, "", Some(0));
    var db := Db(tt, map[0 := a, 1 := b], [pay], map[], map[], 2, 1, 0, 0);
    assert [pay][1..] == [];
    assert L.Contribution(pay, 0) == 100 && L.Contribution(pay, 1) == 0;
    assert L.PaidFor([pay], 0) == 100 && L.PaidFor([pay], 1) == 0;
    assert ReservationRows(db.reservations, tt, 2);
    assert PaymentRows([pay], db.reservations.Keys, 1);
    assert LedgerConsistent(db);
    assert Valid(db);
    var moved := pay.(reservation := 1);
    assert db.payments[0 := moved.(id := 0)] == [moved];
    assert L.PaidFor([moved], 0) == 0;
    var after := UpdatePaymentAsWritten(db, 0, moved, 5).value;
    assert after.reservations[0] == a;
  }

  /**
   A payment update that keeps the ledger invariant: the entry is replaced,
   then both the reservation it belonged to and the one it now belongs to
   are reconciled.
   */
  function UpdatePayment(db: Db, pid: nat, changed: P.Payment, now: int): (r: Result<Db>)
    requires WellFormed(db)
    ensures IndexOf(db.payments, pid).None? ==> r == Err(NotFound)
    ensures IndexOf(db.payments, pid).Some? && changed.reservation !in db.reservations ==>
              r == Err(ValidationError("reservation"))
    ensures r.Ok? <==> IndexOf(db.payments, pid).Some? && changed.reservation in db.reservations
    ensures r.Ok? ==> var i := IndexOf(db.payments, pid).value;
                      && r.value.payments == db.payments[i := changed.(id := pid)]
                      && r.value.reservations.Keys == db.reservations.Keys
                      && r.value.reservations[changed.reservation].amountPaid
                         == L.PaidFor(r.value.payments, changed.reservation)
                      && r.value.reservations[db.payments[i].reservation].amountPaid
                         == L.PaidFor(r.value.payments, db.payments[i].reservation)
                      && r.value.reservations[changed.reservation]
                         == L.Reconcile(db.reservations[changed.reservation], r.value.payments,
                                        FeeOf(db, changed.reservation), now)
                      && r.value.reservations[db.payments[i].reservation]
                         == L.Reconcile(db.reservations[db.payments[i].reservation], r.value.payments,
                                        FeeOf(db, db.payments[i].reservation), now)
                      && (forall x :: x in db.reservations && x != changed.reservation && x != db.payments[i].reservation
                            ==> r.value.reservations[x] == db.reservations[x])
                      && r.value.(reservations := db.reservations, payments := db.payments) == db
  {
    match IndexOf(db.payments, pid)
    case None => Err(NotFound)
    case Some(i) =>
      if changed.reservation !in db.reservations then Err(ValidationError("reservation"))
      else
        var previous := db.payments[i].reservation;
        var updated := db.(payments := db.payments[i := changed.(id := pid)]);
        var first := ReconcileReservation(updated, previous, now);
        // reconciling the same reservation twice on one ledger is reconciling it once
        L.ReconcileIdempotent(db.reservations[previous], updated.payments, FeeOf(db, previous), now, now);
        Ok(ReconcileReservation(first, changed.reservation, now))
  }

  lemma UpdatePaymentPreservesValid(db: Db, pid: nat, changed: P.Payment, now: int)
    requires Valid(db)
    requires UpdatePayment(db, pid, changed, now).Ok?
    ensures Valid(UpdatePayment(db, pid, changed, now).value)
  {
    var i := IndexOf(db.payments, pid).value;
    var previous := db.payments[i].reservation;
    var q := changed.(id := pid);
    var updated := db.(payments := db.payments[i := q]);
    assert ConsistentExcept(updated, {previous, changed.reservation}) by {
      forall x | x in updated.reservations && x !in {previous, changed.reservation}
        ensures updated.reservations[x].amountPaid == L.PaidFor(updated.payments, x)
      {
        L.PaidForReplaceAt(db.payments, i, q, x);
      }
    }
    assert RefundsLinked(updated) by {
      forall id | id in updated.refunds
        ensures HasPayment(updated.payments, updated.refunds[id].payment)
      {
        ReplaceKeepsPayment(db.payments, i, q, db.refunds[id].payment);
      }
    }
    ReplaceKeepsPaymentRows(db.payments, i, q, db.reservations.Keys, db.nextPayment);
    assert WellFormed(updated);
    ReconcileRestores(updated, previous, {previous, changed.reservation}, now);
    var first := ReconcileReservation(updated, previous, now);
    ReconcileRestores(first, changed.reservation, {previous, changed.reservation} - {previous}, now);
    assert {previous, changed.reservation} - {previous} - {changed.reservation} == {};
  }

  /**
   A payment deletion: the entry is removed (its refunds go with it, by the
   cascade) and its reservation is reconciled.
   */
  function DeletePayment(db: Db, pid: nat, now: int): (r: Result<Db>)
    requires WellFormed(db)
    ensures r.Ok? <==> IndexOf(db.payments, pid).Some?
    ensures r.Err? ==> r.error == NotFound
    ensures r.Ok? ==> r.value.reservations.Keys == db.reservations.Keys
    ensures r.Ok? ==> var i := IndexOf(db.payments, pid).value;
                      && r.value.payments == L.RemoveAt(db.payments, i)
                      && r.value.reservations[db.payments[i].reservation].amountPaid
                         == L.PaidFor(db.payments, db.payments[i].reservation) - L.Contribution(db.payments[i], db.payments[i].reservation)
                      && r.value.reservations[db.payments[i].reservation]
                         == L.Reconcile(db.reservations[db.payments[i].reservation], r.value.payments,
                                        FeeOf(db, db.payments[i].reservation), now)
                      && (forall x :: x in db.reservations && x != db.payments[i].reservation
                            ==> r.value.reservations[x] == db.reservations[x])
                      && (forall k :: k in r.value.refunds ==> r.value.refunds[k].payment != pid)
                      && r.value.refunds == (map k | k in db.refunds && db.refunds[k].payment != pid :: db.refunds[k])
                      && r.value.proofs == db.proofs && r.value.ticketTypes == db.ticketTypes
  {
    match IndexOf(db.payments, pid)
    case None => Err(NotFound)
    case Some(i) =>
      var rid := db.payments[i].reservation;
      L.PaidForRemoveAt(db.payments, i, rid);
      var removed := db.(payments := L.RemoveAt(db.payments, i),
                         refunds := map k | k in db.refunds && db.refunds[k].payment != pid :: db.refunds[k]);
      Ok(ReconcileReservation(removed, rid, now))
  }

  lemma DeletePaymentPreservesValid(db: Db, pid: nat, now: int)
    requires Valid(db) && IndexOf(db.payments, pid).Some?
    ensures Valid(DeletePayment(db, pid, now).value)
  {
    var i := IndexOf(db.payments, pid).value;
    var rid := db.payments[i].reservation;
    var removed := db.(payments := L.RemoveAt(db.payments, i),
                       refunds := map k | k in db.refunds && db.refunds[k].payment != pid :: db.refunds[k]);
    assert ConsistentExcept(removed, {rid}) by {
      forall x | x in removed.reservations && x != rid
        ensures removed.reservations[x].amountPaid == L.PaidFor(removed.payments, x)
      {
        L.PaidForRemoveAt(db.payments, i, x);
      }
    }
    assert RefundsLinked(removed) by {
      forall id | id in removed.refunds
        ensures HasPayment(removed.payments, removed.refunds[id].payment)
      {
        RemoveKeepsOtherPayment(db.payments, i, db.refunds[id].payment);
      }
    }
    assert PaymentsWellFormed(removed);
    assert WellFormed(removed);
    ReconcileRestores(removed, rid, {rid}, now);
  }

  /**
   `mark_as_completed` followed by its save: the payment is completed and
   stamped, and its reservation reconciled.
   */
  function MarkPaymentCompleted(db: Db, pid: nat, reference: Option<string>, now: int): (r: Result<Db>)
    requires WellFormed(db)
    ensures r.Ok? <==> IndexOf(db.payments, pid).Some?
    ensures r.Ok? ==> r.value.reservations.Keys == db.reservations.Keys
    ensures r.Ok? ==> var i := IndexOf(db.payments, pid).value;
                      var rid := db.payments[i].reservation;
                      && r.value.payments == db.payments[i := P.MarkAsCompleted(db.payments[i], reference, now)]
                      && r.value.reservations[rid].amountPaid == L.PaidFor(r.value.payments, rid)
                      && r.value.reservations[rid] == L.Reconcile(db.reservations[rid], r.value.payments, FeeOf(db, rid), now)
                      && (forall x :: x in db.reservations && x != rid ==> r.value.reservations[x] == db.reservations[x])
                      && r.value == db.(payments := r.value.payments, reservations := r.value.reservations)
  {
    match IndexOf(db.payments, pid)
    case None => Err(NotFound)
    case Some(i) =>
      var completed := P.MarkAsCompleted(db.payments[i], reference, now);
      assert completed.(id := pid) == completed;
      UpdatePayment(db, pid, completed, now)
  }

  /**
   Completing a pending payment on a consistent database adds exactly its
   amount to its reservation's paid amount.
   */
  lemma CompletingAddsAmount(db: Db, pid: nat, reference: Option<string>, now: int)
    requires Valid(db)
    requires IndexOf(db.payments, pid).Some?
    requires db.payments[IndexOf(db.payments, pid).value].status != P.Completed
    ensures var i := IndexOf(db.payments, pid).value;
            var rid := db.payments[i].reservation;
            MarkPaymentCompleted(db, pid, reference, now).value.reservations[rid].amountPaid
              == db.reservations[rid].amountPaid + db.payments[i].amount
  {
    var i := IndexOf(db.payments, pid).value;
    var rid := db.payments[i].reservation;
    L.PaidForReplaceAt(db.payments, i, P.MarkAsCompleted(db.payments[i], reference, now), rid);
  }
}

=== FILE: text.dfy ===
/**
 Character-level helpers the backend relies on: hexadecimal rendering of
 random bytes (`secrets.token_hex` followed by `str.upper`) and decimal
 rendering of record ids inside payment references.
 */
module Text {
  import opened Common

  const LowerHexDigits: string := "0123456789abcdef"

  predicate IsUpperHexDigit(c: char) {
    ('0' <= c <= '9') || ('A' <= c <= 'F')
  }

  predicate IsDecimalDigit(c: char) {
    '0' <= c <= '9'
  }

  /** Two lower-case hex digits per byte, most significant nibble first. */
  function TokenHex(bytes: seq<byte>): (s: string)
    ensures |s| == 2 * |bytes|
    ensures forall i :: 0 <= i < |s| ==> ('0' <= s[i] <= '9') || ('a' <= s[i] <= 'f')
  {
    if |bytes| == 0 then []
    else HexPair(bytes[0]) + TokenHex(bytes[1..])
  }

  /** The two lower-case hex digits of one byte, most significant nibble first. */
  function HexPair(b: byte): (s: string)
    ensures |s| == 2
    ensures forall i :: 0 <= i < |s| ==> ('0' <= s[i] <= '9') || ('a' <= s[i] <= 'f')
  {
    [LowerHexDigits[b / 16], LowerHexDigits[b % 16]]
  }

  /** ASCII upper-casing of one character; everything but `a`..`z` is kept. */
  function UpperChar(c: char): char {
    if 'a' <= c <= 'z' then (c as int - 'a' as int + 'A' as int) as char else c
  }

  function Upper(s: string): (u: string)
    ensures |u| == |s|
    ensures forall i :: 0 <= i < |s| ==> u[i] == UpperChar(s[i])
  {
    if |s| == 0 then [] else [UpperChar(s[0])] + Upper(s[1..])
  }

  /** The value of one upper-case hex digit. */
  function HexValue(c: char): (v: nat)
    requires IsUpperHexDigit(c)
    ensures v < 16
  {
    if '0' <= c <= '9' then c as int - '0' as int else c as int - 'A' as int + 10
  }

  /** Reads back a string of upper-case hex digit pairs as bytes. */
  function HexDecode(s: string): (bytes: seq<byte>)
    requires |s| % 2 == 0
    requires forall i :: 0 <= i < |s| ==> IsUpperHexDigit(s[i])
    ensures 2 * |bytes| == |s|
  {
    if |s| == 0 then []
    else [HexValue(s[0]) * 16 + HexValue(s[1])] + HexDecode(s[2..])
  }

  /** Decoding the upper-cased hex rendering gives back the bytes. */
  lemma {:induction false} HexRoundTrip(bytes: seq<byte>)
    ensures var s := Upper(TokenHex(bytes));
            forall i :: 0 <= i < |s| ==> IsUpperHexDigit(s[i])
    ensures HexDecode(Upper(TokenHex(bytes))) == bytes
  {
    UpperHexDigits(bytes);
    if |bytes| > 0 {
      HexRoundTrip(bytes[1..]);
      var pair := Upper(HexPair(bytes[0]));
      var rest := Upper(TokenHex(bytes[1..]));
      assert |rest| == 2 * |bytes[1..]|;
      DoubleIsEven(|bytes[1..]|);
      UpperConcat(HexPair(bytes[0]), TokenHex(bytes[1..]));
      assert Upper(TokenHex(bytes)) == pair + rest;
      PairRoundTrip(bytes[0]);
      HexDecodeCons(bytes, pair, rest);
    }
  }

  lemma DoubleIsEven(n: nat)
    ensures (2 * n) % 2 == 0
  {
  }

  /** Upper-casing lower-case hex digits gives upper-case hex digits. */
  lemma UpperHexDigits(bytes: seq<byte>)
    ensures var s := Upper(TokenHex(bytes));
            forall i :: 0 <= i < |s| ==> IsUpperHexDigit(s[i])
  {
    var t := TokenHex(bytes);
    forall i | 0 <= i < |Upper(t)|
      ensures IsUpperHexDigit(Upper(t)[i])
    {
      assert Upper(t)[i] == UpperChar(t[i]);
    }
  }

  /** The upper-cased digits of one byte are upper-case hex and read back as that byte. */
  lemma PairRoundTrip(b: byte)
    ensures var u := Upper(HexPair(b));
            && |u| == 2 && IsUpperHexDigit(u[0]) && IsUpperHexDigit(u[1])
            && HexValue(u[0]) * 16 + HexValue(u[1]) == b
  {
    NibbleRoundTrip(b / 16);
    NibbleRoundTrip(b % 16);
  }

  /**
   One decoding step: a string made of the two digits of a byte followed by
   the encoding of the remaining bytes decodes to all of the bytes.
   */
  lemma HexDecodeCons(bytes: seq<byte>, pair: string, rest: string)
    requires |bytes| > 0 && |pair| == 2 && IsUpperHexDigit(pair[0]) && IsUpperHexDigit(pair[1])
    requires HexValue(pair[0]) * 16 + HexValue(pair[1]) == bytes[0]
    requires |rest| % 2 == 0 && forall i :: 0 <= i < |rest| ==> IsUpperHexDigit(rest[i])
    requires HexDecode(rest) == bytes[1..]
    ensures forall i :: 0 <= i < |pair + rest| ==> IsUpperHexDigit((pair + rest)[i])
    ensures HexDecode(pair + rest) == bytes
  {
    var s := pair + rest;
    assert s[2..] == rest;
    assert bytes == [bytes[0]] + bytes[1..];
  }

  lemma {:induction false} UpperConcat(a: string, b: string)
    ensures Upper(a + b) == Upper(a) + Upper(b)
  {
    if |a| > 0 {
      assert (a + b)[1..] == a[1..] + b;
      UpperConcat(a[1..], b);
    } else {
      assert a + b == b;
    }
  }

  lemma NibbleRoundTrip(n: nat)
    requires n < 16
    ensures IsUpperHexDigit(UpperChar(LowerHexDigits[n]))
    ensures HexValue(UpperChar(LowerHexDigits[n])) == n
  {
  }

  /** Python's `str(n)` for a natural number. */
  function DecimalString(n: nat): (s: string)
    ensures |s| > 0
    ensures forall i :: 0 <= i < |s| ==> IsDecimalDigit(s[i])
  {
    if n < 10 then [DigitChar(n)] else DecimalString(n / 10) + [DigitChar(n % 10)]
  }

  function DigitChar(d: nat): (c: char)
    requires d < 10
    ensures IsDecimalDigit(c)
  {
    (d + '0' as int) as char
  }

  /** Reads a string of decimal digits back as a number. */
  function ParseDecimal(s: string): nat
    requires forall i :: 0 <= i < |s| ==> IsDecimalDigit(s[i])
  {
    if |s| == 0 then 0
    else
      assert IsDecimalDigit(s[|s| - 1]);
      ParseDecimal(s[..|s| - 1]) * 10 + (s[|s| - 1] as int - '0' as int)
  }

  lemma {:induction false} DecimalRoundTrip(n: nat)
    ensures ParseDecimal(DecimalString(n)) == n
  {
    if n >= 10 {
      var s := DecimalString(n);
      assert s[..|s| - 1] == DecimalString(n / 10);
      DecimalRoundTrip(n / 10);
    }
  }

  /** Distinct numbers render as distinct strings. */
  lemma DecimalStringInjective(a: nat, b: nat)
    requires DecimalString(a) == DecimalString(b)
    ensures a == b
  {
    DecimalRoundTrip(a);
    DecimalRoundTrip(b);
  }
}

=== FILE: users.dfy ===
/**
 Accounts (users/models.py): the user record with its role and verification
 flag, who is making a request, and the manager operations that create
 ordinary users and superusers.
 */
module Users {
  import opened Common

  datatype Role = Attendee | Organizer | Finance | Admin

  datatype User = User(
    id: nat,
    email: string,
    username: string,
    fullName: string,
    role: Role,
    isVerified: bool,
    isStaff: bool,
    isSuperuser: bool,
    isActive: bool)

  /** Who sent a request: nobody logged in, or an account. */
  datatype Requester = Anonymous | Authenticated(user: User) {

    predicate IsStaff() {
      Authenticated? && user.isStaff
    }
  }

  /**
   The keyword arguments a caller may pass to the manager. An absent field
   takes the model default; the password is handed to the hashing library
   and is not part of this model.
   */
  datatype ExtraFields = ExtraFields(
    fullName: Option<string>,
    role: Option<Role>,
    isVerified: Option<bool>,
    isStaff: Option<bool>,
    isSuperuser: Option<bool>,
    isActive: Option<bool>)

  const NoExtraFields := ExtraFields(None, None, None, None, None, None)

  /**
   A user built from an email and extra fields; every field the caller leaves
   out takes the model's default (role attendee, unverified, not staff, not
   superuser, active, empty full name).
   */
  function NewUser(id: nat, email: string, extra: ExtraFields): (u: User)
    ensures extra == NoExtraFields ==>
              u.role == Attendee && !u.isVerified && !u.isStaff && !u.isSuperuser && u.isActive
    ensures u.email == email
  {
    User(id, email, "", extra.fullName.GetOr(""), extra.role.GetOr(Attendee),
         extra.isVerified.GetOr(false), extra.isStaff.GetOr(false),
         extra.isSuperuser.GetOr(false), extra.isActive.GetOr(true))
  }

  /**
   `create_user`: refuses an empty email; otherwise the email is normalised
   (by a library routine, passed in as `normalize`) and used both as the
   email and as the username.
   */
  function CreateUser(id: nat, email: string, extra: ExtraFields, normalize: string -> string): (r: Result<User>)
    ensures r.Err? <==> |email| == 0
    ensures r.Err? ==> r.error == ValueError("The Email must be set")
    ensures r.Ok? ==> r.value.email == normalize(email) && r.value.username == normalize(email)
    ensures r.Ok? ==> (&& r.value.role == extra.role.GetOr(Attendee)
                       && r.value.isVerified == extra.isVerified.GetOr(false)
                       && r.value.isStaff == extra.isStaff.GetOr(false)
                       && r.value.isSuperuser == extra.isSuperuser.GetOr(false)
                       && r.value.isActive == extra.isActive.GetOr(true))
  {
    if |email| == 0 then Err(ValueError("The Email must be set"))
    else
      var normalized := normalize(email);
      Ok(NewUser(id, normalized, extra).(username := normalized))
  }

  /** `create_superuser`'s defaults: every flag on and the admin role, unless given. */
  function SuperuserDefaults(extra: ExtraFields): ExtraFields {
    extra.(isStaff := Some(extra.isStaff.GetOr(true)),
           isSuperuser := Some(extra.isSuperuser.GetOr(true)),
           isActive := Some(extra.isActive.GetOr(true)),
           role := Some(extra.role.GetOr(Admin)),
           isVerified := Some(extra.isVerified.GetOr(true)))
  }

  /**
   `create_superuser`: fills the superuser defaults, refuses an explicit
   non-staff or non-superuser flag (checked in that order, before the email),
   then creates the user.
   */
  function CreateSuperuser(id: nat, email: string, extra: ExtraFields, normalize: string -> string): (r: Result<User>)
    ensures extra.isStaff == Some(false) ==> r == Err(ValueError("Superuser must have is_staff=True."))
    ensures extra.isStaff != Some(false) && extra.isSuperuser == Some(false) ==>
              r == Err(ValueError("Superuser must have is_superuser=True."))
    ensures r.Ok? <==> extra.isStaff != Some(false) && extra.isSuperuser != Some(false) && |email| > 0
    ensures r.Ok? ==> r.value.isStaff && r.value.isSuperuser
    ensures r.Ok? ==> (&& r.value.isActive == extra.isActive.GetOr(true)
                       && r.value.role == extra.role.GetOr(Admin)
                       && r.value.isVerified == extra.isVerified.GetOr(true))
    ensures r.Ok? ==> r.value.username == normalize(email)
  {
    var fields := SuperuserDefaults(extra);
    FlagDefault(extra.isStaff);
    FlagDefault(extra.isSuperuser);
    if fields.isStaff != Some(true) then Err(ValueError("Superuser must have is_staff=True."))
    else if fields.isSuperuser != Some(true) then Err(ValueError("Superuser must have is_superuser=True."))
    else CreateUser(id, email, fields, normalize)
  }

  /** A flag defaulted to true is not true exactly when it was explicitly false. */
  lemma FlagDefault(flag: Option<bool>)
    ensures Some(flag.GetOr(true)) != Some(true) <==> flag == Some(false)
  {
    match flag
    case None =>
    case Some(b) =>
  }

  /** Without extra fields, a superuser is an active, verified admin with both flags. */
  lemma SuperuserWithoutExtras(id: nat, email: string, normalize: string -> string)
    requires |email| > 0
    ensures var r := CreateSuperuser(id, email, NoExtraFields, normalize);
            r.Ok? && r.value.isStaff && r.value.isSuperuser && r.value.isActive
            && r.value.role == Admin && r.value.isVerified
  {
  }
}
